=== FILE: README.md ===
# Address book rules in Dafny

The address book is a Swing and JDBC desktop application for keeping contacts.
Each contact has a first name, last name, location, phone and email. Underneath
the windows and SQL calls it follows a set of deterministic rules, and this
project models them and proves what they promise:

- **Validation.** The contact validator's emptiness check, its E.164-like phone
  pattern and its email pattern run in a fixed order: emptiness, then phone,
  then email. The patterns are written as character-class predicates, with no
  regular-expression engine.
- **Identity.** Two contacts are the same when their five trimmed fields agree.
  A duplicate check scans a list for such a contact, and `ContactDTO` is a
  mutable record with setters.
- **The contact screens.** This covers the table row buffer and its search
  filter, the selected contact id (-1 when none), and the add, edit and delete
  handlers. It also covers the form panel with its trimmed getters and
  focus-lost warnings, and the reusable table panel.
  - The repository has two copies of the contact screen. Their add, edit,
    delete, filter and selection handlers agree except for the phone pattern:
    11 to 14 trailing digits in one, 9 to 14 in the other.
  - So those handlers are modelled once, in the class `ContactPage.ContactPage`,
    whose `phoneMinDigits` is fixed at construction.
  - The copies' focus listeners differ. `ContactPage.ContactPage.OnPhoneFocusLost`
    and `OnEmailFocusLost` model only the current screen's listener. The older
    screen does not use them: its per-field listeners are
    `LegacyContactPage.FocusValidator`.
- **The dashboard's services.**
  - Contact menu: add, edit, delete, duplicate and merge, with selection by
    "first last" label.
  - Tools: search, stable sort and filter.
  - CSV import and export.
  - Dates: the age analysis, the period choice and the date-range bounds.
  - Edit menu: the undo/redo stacks and the clipboard actions.
- **Themes.** The two theme helpers: the class-name lookup with its fallback,
  and the current theme with its persisted name.

The database is modelled as an abstract list of records:
- a handler returns the `StoreCall` it makes;
- the ids and lists the store answers with come back in as parameters;
- the data lines whose insert throws are given as a set.

Other inputs are modelled as follows:
- Dialogs are inputs. `None` means the user cancelled; otherwise the input is
  what was typed or picked.
- Files are sequences of lines.
- The clock ("now") is a parameter, and timestamps are whole seconds.
- Java's `null` is `JavaLang.Option`.
- `String.trim` strips every character up to U+0020. Case-insensitive
  comparison is ASCII-only.
- `String.split` drops trailing empty fields, as Java's does.

## Model

| member | source | states |
|---|---|---|
| ContactValidator.FirstFailure | src/main/java/com/addressbook/logic/ContactValidator.java:26-41 | The first failing check in the order empty, phone, email decides the outcome. Each outcome holds exactly when its check fails and all earlier ones pass. |
| ContactValidator.Message | src/main/java/com/addressbook/logic/ContactValidator.java:26-41 | An error dialog text is shown exactly when the outcome is not valid. |
| ContactValidator.ValidateFields | src/main/java/com/addressbook/logic/ContactValidator.java:24-44 | Validation passes iff all five trimmed fields are non-empty and the phone and email patterns accept the trimmed texts. A missing field is reported first even when the phone is also bad. |
| ContactValidator.WarnedFieldFailsValidation | src/main/java/com/addressbook/logic/ContactFormPanel.java:189-207 | A phone or email that draws a focus-lost warning can never pass `validateFields`. |
| ContactValidator.ValidPhoneShape | src/main/java/com/addressbook/logic/ContactValidator.java:59-61 | An accepted phone is 13 to 16 characters once trimmed and holds no whitespace or control character. |
| ContactValidator.ValidEmailHasOneAt | src/main/java/com/addressbook/logic/ContactValidator.java:66-68 | An accepted email contains exactly one `@`. |
| ContactValidator.EmailAccepts | src/main/java/com/addressbook/logic/ContactValidator.java:12 | Every string L@D.T is accepted when L is non-empty over the local-part class, D is non-empty over the domain class and T is two or more letters. |
| ContactValidator.UntrimmedPhoneImpliesValid | src/main/java/com/addressbook/logic/ContactValidator.java:59-61 | A phone the pattern accepts as typed is also accepted after trimming. |
| ContactValidator.UntrimmedEmailImpliesValid | src/main/java/com/addressbook/logic/ContactValidator.java:66-68 | An email the pattern accepts as typed is also accepted after trimming. |
| ContactValidator.PaddedPhone | src/main/java/com/addressbook/logic/ContactValidator.java:59-61 | A phone with a leading space is accepted after trimming but rejected as typed. |
| ContactLogic.NormalizedIsSame | src/main/java/com/addressbook/logic/ContactService.java:101-107 | The trimmed key trims to itself, and every contact is the same as its key. |
| ContactLogic.SameContactIffSameKey | src/main/java/com/addressbook/logic/ContactService.java:101-107 | Two contacts are the same iff their five trimmed fields are equal, case-sensitively. The id and timestamps are ignored. |
| ContactLogic.SameContactIsEquivalence | src/main/java/com/addressbook/logic/ContactService.java:101-107 | `isSameContact` is reflexive, symmetric and transitive. |
| ContactLogic.IsDuplicateContact | src/main/java/com/addressbook/logic/ContactService.java:49-56 | A contact is a duplicate iff some element of the list is the same contact. It is false on an empty list. |
| ContactLogic.DuplicateOfAppended | src/main/java/com/addressbook/logic/ContactService.java:49-56 | A contact is always a duplicate in a list it has been appended to. |
| ContactLogic.DuplicateDependsOnlyOnKey | src/main/java/com/addressbook/logic/ContactService.java:49-56 | Contacts with equal trimmed keys are duplicates in exactly the same lists. |
| ContactLogic.DuplicateIgnoresPadding | src/main/java/com/addressbook/logic/ContactService.java:49-56 | Surrounding every field with whitespace does not change whether a contact is a duplicate. |
| ContactLogic.CreateContact | src/main/java/com/addressbook/logic/ContactService.java:61-69 | The new record holds the five values verbatim, id 0 and no timestamps. |
| ContactModel.ToDays | src/main/java/com/addressbook/model/ContactDTO.java:113 | A span of seconds is counted in whole days, truncated toward zero for negative spans as well. |
| ContactModel.AgeInDays | src/main/java/com/addressbook/model/ContactDTO.java:111-114 | The age is 0 without a creation time. Otherwise it is the whole days from creation to now, truncated toward zero, and it is non-negative when the creation time is not after now. |
| ContactModel.Display | src/main/java/com/addressbook/model/ContactDTO.java:87-101 | The display is "N/A" exactly when the timestamp is missing. Otherwise it renders that timestamp with the given pattern. |
| ContactModel.ContactDTO.constructor | src/main/java/com/addressbook/model/ContactDTO.java:8-15 | A fresh record has id 0 and every string and timestamp field null. |
| ContactModel.ContactDTO.SetCid | src/main/java/com/addressbook/model/ContactDTO.java:26-28 | The setter changes only the id, to the value given. |
| ContactModel.ContactDTO.SetFirstName | src/main/java/com/addressbook/model/ContactDTO.java:34-36 | The setter changes only the first name, to the value given. |
| ContactModel.ContactDTO.SetLastName | src/main/java/com/addressbook/model/ContactDTO.java:42-44 | The setter changes only the last name, to the value given. |
| ContactModel.ContactDTO.SetLocation | src/main/java/com/addressbook/model/ContactDTO.java:50-52 | The setter changes only the location, to the value given. |
| ContactModel.ContactDTO.SetPhone | src/main/java/com/addressbook/model/ContactDTO.java:58-60 | The setter changes only the phone, to the value given. |
| ContactModel.ContactDTO.SetEmail | src/main/java/com/addressbook/model/ContactDTO.java:66-68 | The setter changes only the email, to the value given. |
| ContactModel.ContactDTO.SetCreatedAt | src/main/java/com/addressbook/model/ContactDTO.java:74-76 | The setter changes only the creation time, to the value given. |
| ContactModel.ContactDTO.SetUpdatedAt | src/main/java/com/addressbook/model/ContactDTO.java:82-84 | The setter changes only the update time, to the value given. |
| ContactModel.ContactDTO.CreatedAtDisplay | src/main/java/com/addressbook/model/ContactDTO.java:87-89 | The getter returns "N/A" exactly when the creation time is null. |
| ContactModel.ContactDTO.UpdatedAtDisplay | src/main/java/com/addressbook/model/ContactDTO.java:91-93 | The getter returns "N/A" exactly when the update time is null. |
| ContactModel.ContactDTO.CreatedAtDateOnly | src/main/java/com/addressbook/model/ContactDTO.java:95-97 | The getter returns "N/A" exactly when the creation time is null. |
| ContactModel.ContactDTO.UpdatedAtDateOnly | src/main/java/com/addressbook/model/ContactDTO.java:99-101 | The getter returns "N/A" exactly when the update time is null. |
| ContactModel.ContactDTO.IsRecentlyModified | src/main/java/com/addressbook/model/ContactDTO.java:104-108 | The result is false without an update time. Otherwise it is true iff the update time is strictly after now minus seven days. |
| ContactModel.ContactDTO.GetAgeInDays | src/main/java/com/addressbook/model/ContactDTO.java:111-114 | The record's age is `AgeInDays` of its creation time: 0 while that is null, otherwise whole days truncated toward zero. |
| TableRows.RowsOf | src/main/java/com/addressbook/logic/ContactPage.java:366-379 | A reload produces one row per contact, in list order, with columns (cid, first, last, location, phone, email). |
| TableRows.Columns | src/main/java/com/addressbook/logic/ContactPage.java:422-427 | The five text columns of every row are taken, in order. |
| TableRows.ViewRows | src/main/java/com/addressbook/logic/ContactPage.java:314-322 | An empty query shows every row. |
| TableRows.ViewShowsMatching | src/main/java/com/addressbook/logic/ContactPage.java:314-322 | A row is shown iff the query is empty or occurs, ignoring ASCII case, in one of columns 1 to 5. The id column is never searched. |
| TableRows.ViewIsSubsequence | src/main/java/com/addressbook/logic/ContactPage.java:314-322 | The view only hides rows. It never reorders or invents them. |
| ContactPage.ScreenStricterThanValidator | src/main/java/com/addressbook/logic/ContactPage.java:454-476 | Every input the screen's untrimmed validation accepts is also accepted by the shared validator. |
| ContactPage.PaddedPhoneRejectedByScreen | src/main/java/com/addressbook/logic/ContactPage.java:454-476 | A valid phone typed with a leading space passes the emptiness check and fails the screen's untrimmed phone check, although the shared validator accepts the same inputs. |
| ContactPage.LegacyPhoneAcceptsMore | src/main/java/src/com/addressbook/UI/components/ContactPage.java:252-258 | Whatever the current screen accepts, the older screen accepts too. |
| ContactPage.LegacyPhoneAcceptsTenDigits | src/main/java/src/com/addressbook/UI/components/ContactPage.java:252-258 | A ten-digit number is accepted only by the older screen's 9-to-14 pattern. |
| ContactPage.SearchHidesDuplicates | src/main/java/com/addressbook/logic/ContactPage.java:415-436 | A contact identical to a row the search hides is not reported as a duplicate. |
| ContactPage.ContactPage.constructor | src/main/java/com/addressbook/logic/ContactPage.java:50-120 | The screen starts with no query, empty inputs and selected id -1. It ends by loading the store's contacts, so it shows one row per stored contact in list order. |
| ContactPage.ContactPage.Filter | src/main/java/com/addressbook/logic/ContactPage.java:314-322 | The query becomes the search text, and an empty query shows every row. |
| ContactPage.ContactPage.LoadContacts | src/main/java/com/addressbook/logic/ContactPage.java:366-379 | The loop leaves exactly one row per contact, in list order. |
| ContactPage.ContactPage.ClearFields | src/main/java/com/addressbook/logic/ContactPage.java:381-388 | The five inputs are emptied and the selected id becomes -1, after which validation reports missing fields. |
| ContactPage.ContactPage.OnPhoneFocusLost | src/main/java/com/addressbook/logic/ContactPage.java:324-350 | A warning is shown iff the trimmed phone is non-empty and fails the pattern. On the current screen this is the shared validator's warning. |
| ContactPage.ContactPage.OnEmailFocusLost | src/main/java/com/addressbook/logic/ContactPage.java:324-350 | A warning is shown iff the trimmed email is non-empty and fails the pattern. |
| ContactPage.ContactPage.OnSelectionChanged | src/main/java/com/addressbook/logic/ContactPage.java:241-250 | Selecting a view row copies its id and five values into the selected id and the inputs. With no selection nothing changes. |
| ContactPage.ContactPage.IsDuplicateContact | src/main/java/com/addressbook/logic/ContactPage.java:415-436 | The inputs are a duplicate iff they are the same contact as some row the table currently shows. |
| ContactPage.ContactPage.HandleAddContact | src/main/java/com/addressbook/logic/ContactPage.java:390-413 | Invalid or duplicate input changes nothing. Otherwise the inputs are stored as typed, exactly one row with the returned id is appended, and the form is cleared. |
| ContactPage.ContactPage.HandleEditContact | src/main/java/com/addressbook/logic/ContactPage.java:438-452 | With no selected id only an error is reported, and invalid input changes nothing. Otherwise the selected id is updated, the table reloaded and the form cleared. |
| ContactPage.ContactPage.HandleDeleteContact | src/main/java/src/com/addressbook/UI/components/ContactPage.java:389-405 | No selection, or a declined confirmation, deletes nothing. Otherwise the ids of the selected view rows are deleted in selection order, the table reloaded and the form cleared. |
| LegacyContactPage.NewLegacyContactPage | src/main/java/src/com/addressbook/UI/components/ContactPage.java:25-47 | The older screen is the shared screen with the 9-digit lower bound of its phone pattern (:252-258). It starts with empty inputs and selected id -1, and it shows one row per stored contact, as its closing `loadContacts()` call gives. |
| LegacyContactPage.FocusValidator.constructor | src/main/java/src/com/addressbook/UI/components/ContactPage.java:218 | The listener's validity flag starts out false. |
| LegacyContactPage.FocusValidator.FocusGained | src/main/java/src/com/addressbook/UI/components/ContactPage.java:220-223 | On gaining focus, the listener records whether the text is valid now. |
| LegacyContactPage.FocusValidator.FocusLost | src/main/java/src/com/addressbook/UI/components/ContactPage.java:226-231 | An error is raised iff the text was invalid on entry and is still invalid, so a field valid on entry never raises one. |
| LegacyContactPage.NewPhoneFocusValidator | src/main/java/src/com/addressbook/UI/components/ContactPage.java:217-232 | The phone listener checks the 9-to-14 pattern on the text as typed. |
| LegacyContactPage.NewEmailFocusValidator | src/main/java/src/com/addressbook/UI/components/ContactPage.java:234-249 | The email listener checks the email pattern on the text as typed. |
| ContactFormPanel.ContactFormPanel.constructor | src/main/java/com/addressbook/logic/ContactFormPanel.java:53-57 | The five fields start out empty. |
| ContactFormPanel.ContactFormPanel.IsValidPhone | src/main/java/com/addressbook/logic/ContactFormPanel.java:210-212 | The untrimmed check implies the shared validator's, and agrees with it on already-trimmed input. |
| ContactFormPanel.ContactFormPanel.IsValidEmail | src/main/java/com/addressbook/logic/ContactFormPanel.java:214-216 | The untrimmed check implies the shared validator's, and agrees with it on already-trimmed input. |
| ContactFormPanel.TrimmedOfIsTrim | src/main/java/com/addressbook/logic/ContactFormPanel.java:242-246 | The getters' contract determines their result: the only string it admits is `trim()` of the field's text. |
| ContactFormPanel.ContactFormPanel.GetFirstName | src/main/java/com/addressbook/logic/ContactFormPanel.java:242 | The first name getter returns the slice of the field's text left between a whitespace-only prefix and a whitespace-only suffix. That slice trims to itself, is empty iff the text is whitespace only, and otherwise starts and ends on a kept character. |
| ContactFormPanel.ContactFormPanel.GetLastName | src/main/java/com/addressbook/logic/ContactFormPanel.java:243 | The last name getter returns the slice of the field's text left between a whitespace-only prefix and a whitespace-only suffix. That slice trims to itself, is empty iff the text is whitespace only, and otherwise starts and ends on a kept character. |
| ContactFormPanel.ContactFormPanel.GetLocationText | src/main/java/com/addressbook/logic/ContactFormPanel.java:244 | The location getter returns the slice of the field's text left between a whitespace-only prefix and a whitespace-only suffix. That slice trims to itself, is empty iff the text is whitespace only, and otherwise starts and ends on a kept character. |
| ContactFormPanel.ContactFormPanel.GetPhone | src/main/java/com/addressbook/logic/ContactFormPanel.java:245 | The phone getter returns the slice of the field's text left between a whitespace-only prefix and a whitespace-only suffix. That slice trims to itself, is empty iff the text is whitespace only, and otherwise starts and ends on a kept character. |
| ContactFormPanel.ContactFormPanel.GetEmail | src/main/java/com/addressbook/logic/ContactFormPanel.java:246 | The email getter returns the slice of the field's text left between a whitespace-only prefix and a whitespace-only suffix. That slice trims to itself, is empty iff the text is whitespace only, and otherwise starts and ends on a kept character. |
| ContactFormPanel.ContactFormPanel.AreFieldsEmpty | src/main/java/com/addressbook/logic/ContactFormPanel.java:218-224 | The form is empty iff one of the trimmed getters returns the empty text. |
| ContactFormPanel.ContactFormPanel.SetContactData | src/main/java/com/addressbook/logic/ContactFormPanel.java:226-232 | The fields then hold the given values, and the getters return them trimmed. |
| ContactFormPanel.ContactFormPanel.ClearFields | src/main/java/com/addressbook/logic/ContactFormPanel.java:234-240 | Every field is emptied, after which `areFieldsEmpty` holds. |
| ContactFormPanel.ContactFormPanel.ValidatePhoneField | src/main/java/com/addressbook/logic/ContactFormPanel.java:189-197 | A warning is shown iff the trimmed phone is non-empty and fails the pattern. A warned phone never passes validation. |
| ContactFormPanel.ContactFormPanel.ValidateEmailField | src/main/java/com/addressbook/logic/ContactFormPanel.java:199-207 | A warning is shown iff the trimmed email is non-empty and fails the pattern. A warned email never passes validation. |
| ContactTablePanel.ContactTablePanel.constructor | src/main/java/com/addressbook/logic/ContactTablePanel.java:42 | The table starts with no rows and no query. |
| ContactTablePanel.ContactTablePanel.LoadContacts | src/main/java/com/addressbook/logic/ContactTablePanel.java:171-183 | All rows are replaced by one row per contact, in list order. |
| ContactTablePanel.ContactTablePanel.AddContact | src/main/java/com/addressbook/logic/ContactTablePanel.java:185-194 | Exactly one row is appended at the end, and the existing rows are unchanged. |
| ContactTablePanel.ContactTablePanel.Filter | src/main/java/com/addressbook/logic/ContactTablePanel.java:159-168 | The query becomes the search text, and an empty query clears the filter. |
| ContactTablePanel.ContactTablePanel.GetSelectedCid | src/main/java/com/addressbook/logic/ContactTablePanel.java:204-210 | The result is -1 with no selection. Otherwise it is the id in column 0 of the selected view row. |
| ContactTablePanel.ContactTablePanel.HasSelection | src/main/java/com/addressbook/logic/ContactTablePanel.java:212-214 | A selection exists iff the selected row index is not -1. |
| ContactTablePanel.ContactTablePanel.SelectionAgreesWithCid | src/main/java/com/addressbook/logic/ContactTablePanel.java:204-214 | While all ids are non-negative, having a selection is the same as the selected id not being -1. |
| ContactDialogs.AddContact | src/main/java/com/addressbook/services/ContactService.java:16-70 | Cancel stores nothing, and so does a blank first or last name. Otherwise the five trimmed fields are stored, and location, phone and email are not checked. |
| ContactDialogs.FindByLabelIsFirstMatch | src/main/java/com/addressbook/services/ContactService.java:97-100 | The label search finds a contact iff one carries the label, and then it is the earliest in list order. |
| ContactDialogs.LaterNamesakeUnreachable | src/main/java/com/addressbook/services/ContactService.java:140-143 | Of two distinct contacts with the same label, the later one can never be selected. |
| ContactDialogs.Select | src/main/java/com/addressbook/services/ContactService.java:188-191 | An empty list or a cancelled choice stops the action. Otherwise the action stops as not found iff no contact carries the label, and when one does, the pick is the first contact carrying it. |
| ContactDialogs.DeleteContact | src/main/java/com/addressbook/services/ContactService.java:108-161 | An empty list, a cancelled selection, a declined confirmation or a label no contact carries deletes nothing, each with its own outcome. A delete happens iff the selection is confirmed and found, and it removes exactly the first contact carrying the chosen label. |
| ContactDialogs.CopyOf | src/main/java/com/addressbook/services/ContactService.java:195-200 | The copy's first name is the original followed by " (Copy)", and the other four fields are unchanged. |
| ContactDialogs.CopyIsNotSameContact | src/main/java/com/addressbook/services/ContactService.java:195-200 | A copy is never the same contact as its original. |
| ContactDialogs.DuplicateContact | src/main/java/com/addressbook/services/ContactService.java:163-215 | An empty list, a cancelled choice or an unknown label stores nothing, each with its own outcome. A copy of the first contact with the chosen label is stored exactly when such a contact exists. |
| ContactDialogs.MergeContacts | src/main/java/com/addressbook/services/ContactService.java:217-232 | Fewer than two contacts stop the action. Otherwise it only announces that merging is not available. |
| ContactDialogs.ShowEditDialog | src/main/java/com/addressbook/services/ContactService.java:242-294 | On OK the record's five fields are overwritten with the trimmed texts before the names are checked. A rejected edit therefore changes the record but makes no store call, and the id and timestamps never change. |
| ContactDialogs.EditContact | src/main/java/com/addressbook/services/ContactService.java:72-106 | An empty list, a cancelled selection or dialog, a label no contact carries, or a blank name each stop with their own outcome and no store call. A found contact edited with OK and both names is updated with the trimmed fields. That is the first contact with the chosen label, and it is the only case that updates. |
| ToolsService.Search | src/main/java/com/addressbook/services/ToolsService.java:17-42 | A cancelled or blank term searches nothing, and the results are never longer than the list. |
| ToolsService.SearchResultsAreMatches | src/main/java/com/addressbook/services/ToolsService.java:25-31 | The results are an order-preserving subsequence holding every matching contact as often as it occurs, and nothing else. |
| ToolsService.SearchIgnoresCaseOutsidePhone | src/main/java/com/addressbook/services/ToolsService.java:25-31 | A term found in the first name matches in any letter case. |
| ToolsService.PhoneSearchIsCaseSensitive | src/main/java/com/addressbook/services/ToolsService.java:25-31 | The phone is matched case-sensitively. |
| ToolsService.ParseSortOption | src/main/java/com/addressbook/services/ToolsService.java:56-73 | A recognised option text is exactly the text of the key it selects. |
| ToolsService.ParseSortOptionRoundTrip | src/main/java/com/addressbook/services/ToolsService.java:45 | Each option the dialog offers selects its own key. |
| ToolsService.Sort | src/main/java/com/addressbook/services/ToolsService.java:44-77 | Cancel sorts nothing, and an unknown option returns the list unchanged. |
| ToolsService.SortOrdersByKey | src/main/java/com/addressbook/services/ToolsService.java:56-73 | Sorting by a key returns a permutation ordered by that key. The key is ignoring case for names, location and email and case-sensitive for the phone, and contacts with equal keys keep their order. |
| ToolsService.SortedPositions | src/main/java/com/addressbook/services/ToolsService.java:56-73 | Any two positions of the sorted list are in key order. |
| ToolsService.ParseFilterOption | src/main/java/com/addressbook/services/ToolsService.java:97-108 | A recognised option text is exactly the text of the filter it selects. |
| ToolsService.ParseFilterOptionRoundTrip | src/main/java/com/addressbook/services/ToolsService.java:80 | Each option the dialog offers selects its own filter. |
| ToolsService.FilterContacts | src/main/java/com/addressbook/services/ToolsService.java:79-120 | Cancel or a blank value filters nothing, an unknown option returns the list unchanged, and the result is never longer than the list. |
| ToolsService.FilterResultsAreMatches | src/main/java/com/addressbook/services/ToolsService.java:97-108 | A known filter keeps an order-preserving subsequence holding every matching contact as often as it occurs, and nothing else. |
| ToolsService.EmailFilterSearchesWholeAddress | src/main/java/com/addressbook/services/ToolsService.java:97-108 | The "email domain" filter also matches text before the `@`. |
| FileService.FromStore | src/main/java/com/addressbook/services/FileService.java:140 | A stored contact always has an email in the import's terms. |
| FileService.DataLines | src/main/java/com/addressbook/services/FileService.java:148-151 | The first line is dropped iff its lower-cased text contains "firstname", and every other line is kept. |
| FileService.ParseLineShape | src/main/java/com/addressbook/services/FileService.java:154-163 | A line is a record iff its split has at least four fields. The record's fields are trimmed, and it has an email iff there is a fifth field. |
| FileService.FindExistingSpec | src/main/java/com/addressbook/services/FileService.java:166-170 | The scan finds a record iff one matches on names and email ignoring case, and throws on a same-named record without an email. It finds nothing iff no record is of either kind. |
| FileService.FindExistingWithEmails | src/main/java/com/addressbook/services/FileService.java:166-170 | When every record has an email, the scan never throws and finds exactly the records with the same key. |
| FileService.FindExistingAppend | src/main/java/com/addressbook/services/FileService.java:166-170 | Scanning a list extended by one record, when the list itself matches nothing, is the same as scanning that record alone. |
| FileService.Start | src/main/java/com/addressbook/services/FileService.java:140-143 | The import starts from the store's list, with zero counts and nothing added. |
| FileService.CountParsed | src/main/java/com/addressbook/services/FileService.java:154-155 | The count of lines with at least four fields never exceeds the number of lines. |
| FileService.ImportCounts | src/main/java/com/addressbook/services/FileService.java:153-188 | After any prefix of the lines, the duplicate list is the store's list followed by the stored records, and `imported` counts those. Until an exception, imported + skipped + errors is the number of lines with four or more fields. |
| FileService.AbortedIsFinal | src/main/java/com/addressbook/services/FileService.java:62-66 | Once an exception ends the import, later lines change nothing. |
| FileService.ImportFileCounts | src/main/java/com/addressbook/services/FileService.java:171-185 | Unless the import ends in an exception, every non-header line with four or more fields is counted exactly once as imported, skipped or error. |
| FileService.ImportFromFile | src/main/java/com/addressbook/services/FileService.java:139-197 | The loop returns the counts of the line-by-line fold, or the error when the fold throws. The records it stores are those of the fold, and they stay stored even on error. |
| FileService.RepeatedLineIsSkipped | src/main/java/com/addressbook/services/FileService.java:176-180 | A stored line with an email is remembered, so the same line again is skipped. |
| FileService.RepeatedLineWithoutEmailEndsImport | src/main/java/com/addressbook/services/FileService.java:166-170 | After a four-field line is stored without an email, a later line with the same names throws and ends the import. |
| FileService.FourFieldDuplicateEndsImport | src/main/java/com/addressbook/services/FileService.java:156-170 | The same four-field line twice, imported into an empty store, stores the first copy without an email and then ends the import. |
| FileService.ExportToFile | src/main/java/com/addressbook/services/FileService.java:199-215 | The export writes the header, then one comma-joined line per contact in list order. |
| FileService.ExportHeaderIsRecognised | src/main/java/com/addressbook/services/FileService.java:204 | The header the export writes is one the import skips. |
| FileService.ExportLineRoundTrip | src/main/java/com/addressbook/services/FileService.java:207-214 | A contact whose fields hold no comma, no padding and no line break, and whose email is non-empty, reads back as itself. |
| FileService.ReimportLineIsSkipped | src/main/java/com/addressbook/services/FileService.java:166-174 | An exported line of a portable stored contact (no comma, no padding and no line break in any field) matches that contact in the store and is counted as skipped, whether or not an insert would fail. |
| FileService.ReimportSkipsEverything | src/main/java/com/addressbook/services/FileService.java:166-174 | Importing an export of the store's own portable contacts (no comma, no padding and no line break in any field) skips every line and stores nothing. |
| FileService.ExportedDataLines | src/main/java/com/addressbook/services/FileService.java:148-151 | The import reads exactly the exported contact lines and skips the header. |
| DateService.DaysForOption | src/main/java/com/addressbook/services/DateService.java:59-64 | "Last 7 days" gives 7, "Last 30 days" 30 and "Last 90 days" 90; anything else gives 7. |
| DateService.DateRange | src/main/java/com/addressbook/services/DateService.java:108-109 | A range exists iff both dates were given. |
| DateService.DateRangeCoversWholeDays | src/main/java/com/addressbook/services/DateService.java:108-109 | A time lies between the start day at 00:00:00 and the end day at 23:59:59 iff its day lies between the two days, at whole-second precision. |
| DateService.Ages | src/main/java/com/addressbook/services/DateService.java:149-150 | Each contact's age in days is computed, in list order. |
| DateService.MaxFromZero | src/main/java/com/addressbook/services/DateService.java:144-153 | The oldest age is the largest age, or 0 when every age is below 0. |
| DateService.MinFromLongMax | src/main/java/com/addressbook/services/DateService.java:145-154 | The newest age is the smallest age, starting from `Long.MAX_VALUE`. |
| DateService.CountBelow | src/main/java/com/addressbook/services/DateService.java:156 | The count never exceeds the number of ages. |
| DateService.CountAbove | src/main/java/com/addressbook/services/DateService.java:157 | The count never exceeds the number of ages. |
| DateService.AnalysisStep | src/main/java/com/addressbook/services/DateService.java:149-157 | Taking in one more age adds it to the total, raises the oldest or lowers the newest when it goes past them, and adds one to the recent or old count when it qualifies. |
| DateService.AnalyzeAges | src/main/java/com/addressbook/services/DateService.java:131-180 | An empty list computes nothing. Otherwise the loop's total, oldest, newest, recent (< 30) and old (> 365) figures are those of the ages. |
| DateService.NewestNotAfterOldest | src/main/java/com/addressbook/services/DateService.java:143-158 | The oldest age is non-negative and never below the newest. |
| DateService.RecentAndOldAreDisjoint | src/main/java/com/addressbook/services/DateService.java:156-157 | No age is both recent and old, so the two counts sum to at most the number of contacts. |
| DateService.SumBetween | src/main/java/com/addressbook/services/DateService.java:149-158 | Values between two bounds sum to between the bounds times their number. |
| DateService.AverageBetweenNewestAndOldest | src/main/java/com/addressbook/services/DateService.java:160 | The total lies between n times the newest age and n times the oldest, so the average lies between them. |
| EditService.UndoStep | src/main/java/com/addressbook/services/EditService.java:16-31 | An empty undo stack changes nothing. Otherwise its top moves onto the redo stack, and the number of entries is kept. |
| EditService.RedoStep | src/main/java/com/addressbook/services/EditService.java:33-48 | An empty redo stack changes nothing. Otherwise its top moves back onto the undo stack, and the number of entries is kept. |
| EditService.RedoUndoesUndo | src/main/java/com/addressbook/services/EditService.java:16-48 | Undo followed by redo restores both stacks. |
| EditService.UndoUndoesRedo | src/main/java/com/addressbook/services/EditService.java:16-48 | Redo followed by undo restores both stacks. |
| EditService.ReplayKeepsEntries | src/main/java/com/addressbook/services/EditService.java:16-48 | Any run of undos and redos keeps the total number of entries. |
| EditService.EditService.constructor | src/main/java/com/addressbook/services/EditService.java:12-13 | Both stacks start empty. |
| EditService.EditService.Undo | src/main/java/com/addressbook/services/EditService.java:16-31 | The stacks change exactly as the undo step prescribes, and nothing is done iff the undo stack was empty. |
| EditService.EditService.Redo | src/main/java/com/addressbook/services/EditService.java:33-48 | The stacks change exactly as the redo step prescribes, and nothing is done iff the redo stack was empty. |
| EditService.EditService.Cut | src/main/java/com/addressbook/services/EditService.java:50-74 | A non-empty selection in a text field goes to the clipboard and pushes one "Cut: " entry. Otherwise nothing changes, and the redo stack is never touched. |
| EditService.EditService.Copy | src/main/java/com/addressbook/services/EditService.java:76-98 | A non-empty selection goes to the clipboard, and both stacks are left alone. |
| EditService.EditService.Paste | src/main/java/com/addressbook/services/EditService.java:100-123 | Non-empty clipboard text pushes one "Paste: " entry, and nothing else changes. |
| EditService.EditService.Delete | src/main/java/com/addressbook/services/EditService.java:125-148 | A non-empty selection pushes one "Delete: " entry. Otherwise nothing changes. |
| EditService.EditService.SelectAll | src/main/java/com/addressbook/services/EditService.java:150-164 | Select-all succeeds iff a text field has focus, and it changes neither stack nor the clipboard. |
| ThemeUtils.EveryThemeListed | addressbook/src/com/addressbook/utils/ThemeUtils.java:10-14 | `values()` lists every theme. |
| ThemeUtils.ClassNamesDistinct | addressbook/src/com/addressbook/utils/ThemeUtils.java:11-14 | No two themes share a class name. |
| ThemeUtils.FirstWithClassName | addressbook/src/com/addressbook/utils/ThemeUtils.java:27-31 | The loop returns a theme whose class name is exactly the given name, or nothing when no theme has it. |
| ThemeUtils.FromString | addressbook/src/com/addressbook/utils/ThemeUtils.java:26-33 | A known class name gives the theme with that name, and an unknown or null name gives the flat light theme. |
| ThemeUtils.FromStringRoundTrip | addressbook/src/com/addressbook/utils/ThemeUtils.java:26-33 | Every theme's class name leads back to the theme. |
| ThemeUtils.FromStringIsCaseSensitive | addressbook/src/com/addressbook/utils/ThemeUtils.java:28 | A lower-cased class name is unknown. |
| ThemeUtils.ApplyTheme | addressbook/src/com/addressbook/utils/ThemeUtils.java:36-57 | A setup that installs leaves exactly the chosen theme's class, which names that theme again. A setup that returns false leaves the previous class, since the result is ignored. Only a thrown exception reaches the fallback, which installs exactly the flat light class when its own setup succeeds. |
| ThemeUtils.ApplyThemeNamed | addressbook/src/com/addressbook/utils/ThemeUtils.java:59-61 | When setup succeeds, a known class name installs that class and an unknown or missing name installs "FlatLightLaf". A thrown setup with a working fallback installs "FlatLightLaf". A setup that returns false keeps the previous class. |
| ThemeManager.EveryThemeListed | src/main/java/com/addressbook/utils/ThemeManager.java:17-42 | `values()` lists every theme. |
| ThemeManager.FirstLabelled | src/main/java/com/addressbook/utils/ThemeManager.java:147-154 | The loop returns a listed theme carrying the label, or nothing when none does. |
| ThemeManager.ThemeNamed | src/main/java/com/addressbook/utils/ThemeManager.java:171-176 | A stored name selects the theme with that `name()`, or none when no theme has it. |
| ThemeManager.FileAfterSave | src/main/java/com/addressbook/utils/ThemeManager.java:183-192 | A successful save holds the theme's `name()`. A failed open leaves the file as it was, since the stream never opened. A failed store leaves the file that the open truncated, with no theme entry. |
| ThemeManager.LoadAfterFailedStore | src/main/java/com/addressbook/utils/ThemeManager.java:166-192 | After a save fails in `props.store`, the next load finds no theme entry, reads the default "LIGHT" and selects the light theme, whatever was current. |
| ThemeManager.LoadAfterSave | src/main/java/com/addressbook/utils/ThemeManager.java:166-192 | Loading what was saved brings back the saved theme, whatever was current. |
| ThemeManager.UnknownNameKeepsTheme | src/main/java/com/addressbook/utils/ThemeManager.java:170-180 | A stored name that is no constant's `name()` leaves the current theme. |
| ThemeManager.DisplayNameSelectsTheme | src/main/java/com/addressbook/utils/ThemeManager.java:147-154 | Each theme's display name selects that theme. |
| ThemeManager.ThemeManager.constructor | src/main/java/com/addressbook/utils/ThemeManager.java:45 | The light theme is current at start. |
| ThemeManager.ThemeManager.LoadSavedTheme | src/main/java/com/addressbook/utils/ThemeManager.java:166-181 | An unreadable file selects the light theme. Otherwise the stored name selects its theme (default "LIGHT"), and an unknown name keeps the current one. |
| ThemeManager.ThemeManager.SaveTheme | src/main/java/com/addressbook/utils/ThemeManager.java:183-192 | The file becomes as `FileAfterSave` says: the theme's `name()` on success, unchanged when the open fails, and truncated without the theme entry when `props.store` fails. |
| ThemeManager.ThemeManager.ApplyTheme | src/main/java/com/addressbook/utils/ThemeManager.java:53-73 | When the look-and-feel installs, the theme becomes current and the file follows the save's outcome. When the look-and-feel fails, neither the theme nor the file changes. |
| ThemeManager.ThemeManager.Initialize | src/main/java/com/addressbook/utils/ThemeManager.java:47-51 | The saved theme becomes current. When the look-and-feel installs, the file follows the save's outcome, so it is written back when the write succeeds. When the look-and-feel fails, the file is unchanged. |
| ThemeManager.ThemeManager.ShowThemeSelector | src/main/java/com/addressbook/utils/ThemeManager.java:129-155 | Cancel changes nothing. Otherwise the theme whose display name was selected is applied, with the file following the save's outcome, and an unmatched selection changes nothing. |

## Left out

- The database (`ContactDAO`, connections, the theme table) is not part of this
  model. The store is an abstract list of records: handlers return the call
  they make, and the store's answers are parameters.
  - The add handlers receive the new id as `assignedCid`. The store as written
    always answers 0 (src/main/java/com/addressbook/dao/ContactDAO.java:50), and
    the model does not fix that value.
  - The SQL queries behind the statistics, recently modified contacts and date
    range are not modelled. Only the day count and the range bounds handed to
    them are.
- Store failures are not modelled, except for the import's insert failures,
  which are an input set of line positions. Exceptions from reading a file are
  not modelled either.
- Null columns in listed contacts are not modelled. The store's records always
  hold five strings, and only the import's missing email is optional.
- `DateTimeFormatter` output is not modelled. A display getter returns the
  timestamp and the pattern, not the rendered text. Sub-second precision is
  dropped, since timestamps are whole seconds.
- Letter case is ASCII-only. Locale-dependent and non-ASCII case mapping in
  `toLowerCase`, `equalsIgnoreCase` and `compareToIgnoreCase` is not modelled.
- DateService.AnalyzeAges: the average is a `double` and is not computed. The
  total is proved to lie between n times the newest and n times the oldest age.
  `long` overflow of the total is not modelled.
- EditService.EditService.Cut: the text-field edits (`replaceSelection`,
  `selectAll`) are not modelled. Only the stacks and the clipboard are. The same
  holds for `Paste`, `Delete` and `SelectAll`.
- The find-and-replace, backup, restore, settings, print and new-contact menu
  actions only show messages and are not modelled.
- The properties file is reduced to the value of its "theme" property. Escaping
  and other keys are not modelled.
- `ThemeManager` keeps its current theme in static state. The model holds it in
  an instance, since there is one manager.
- `setupGlobalDefaults`, `updateAllWindows` and the styling helpers are not
  modelled, because they only adjust Swing properties.
- Focus requests, message dialogs and Swing table machinery are not modelled.
  - The selection is passed in as view-row indices.
  - The row filter is modelled as the substring test it amounts to.
  - Only the current screen's `validateFields` moves the focus to the failing
    field. The model does not track focus.
  - Header-click sorting by the `TableRowSorter` is not modelled. The view keeps
    model order, so the model does not capture a sorted view index that points
    at a different row than the same model index.
  - Column reordering is not modelled. The older screen allows it and reads the
    id by view column 0, so after a column drag its selection and delete
    handlers would read another column and throw. The model always reads the id
    column.
- ThemeManager.ThemeManager.SaveTheme: a failure in `props.store` is taken to
  leave no theme entry. A failure after the entry reached the file, such as one
  on close, is not distinguished from it.
- ThemeUtils.ApplyTheme: an exception from the fallback `FlatLightLaf.setup()`
  in the catch block is not modelled. Such an exception would escape
  `applyTheme`.
- The login screen, the dashboards, the dialog styling and the statistics bean
  are not part of this model.

=== FILE: contact_dialogs.dfy ===
/**
 * The dashboard's contact menu (the `ContactService` of the services
 * package): add, edit, delete, duplicate and merge through dialogs. A dialog
 * becomes an input: `None` when the user cancels, otherwise what was typed
 * or picked. The store's list is a parameter and each action returns the
 * store call it makes.
 */
module ContactDialogs {
  import opened JavaLang
  import opened ContactModel
  import opened ContactLogic

  /** How a menu action ended. */
  datatype Outcome =
    | NoContacts
    | Cancelled
    | NamesRequired
    | NotFound
    | Declined
    | Completed
    | TooFewToMerge
    | MergeNotAvailable

  /** The dialogs' validation: only the trimmed first and last names are required. */
  predicate NamesPresent(trimmed: ContactFields) {
    trimmed.firstName != [] && trimmed.lastName != []
  }

  /**
   * `addContact`: every field is trimmed; the contact is stored unless the
   * first or last name is then empty. Location, phone and email are not checked.
   */
  function AddContact(dialog: Option<ContactFields>): (r: (Outcome, StoreCall))
    ensures dialog.None? ==> r == (Cancelled, NoCall)
    ensures dialog.Some? && (IsBlank(dialog.value.firstName) || IsBlank(dialog.value.lastName)) ==>
      r == (NamesRequired, NoCall)
    ensures dialog.Some? && !IsBlank(dialog.value.firstName) && !IsBlank(dialog.value.lastName) ==>
      r.0 == Completed && r.1 == AddCall(Normalized(dialog.value))
    ensures r.1.AddCall? ==> Normalized(r.1.fields) == r.1.fields
  {
    if dialog.None? then (Cancelled, NoCall)
    else
      var trimmed := Normalized(dialog.value);
      NormalizedIsSame(dialog.value);
      if !NamesPresent(trimmed) then (NamesRequired, NoCall)
      else (Completed, AddCall(trimmed))
  }

  /** The label a contact is listed under in the selection dialogs. */
  function Label(c: Contact): string {
    c.fields.firstName + " " + c.fields.lastName
  }

  /** `filter(label equals selected).findFirst()`: the first contact in list order with that label. */
  function FindByLabel(contacts: seq<Contact>, selected: string): Option<Contact> {
    if contacts == [] then None
    else if Label(contacts[0]) == selected then Some(contacts[0])
    else FindByLabel(contacts[1..], selected)
  }

  /** The search finds a contact exactly when one carries the label, and then it is the earliest such. */
  lemma {:induction false} FindByLabelIsFirstMatch(contacts: seq<Contact>, selected: string)
    ensures FindByLabel(contacts, selected).None? <==> forall i :: 0 <= i < |contacts| ==> Label(contacts[i]) != selected
    ensures FindByLabel(contacts, selected).Some? ==>
      exists i :: (0 <= i < |contacts| && contacts[i] == FindByLabel(contacts, selected).value
                   && Label(contacts[i]) == selected && forall j :: 0 <= j < i ==> Label(contacts[j]) != selected)
  {
    if contacts != [] && Label(contacts[0]) != selected {
      var tail := contacts[1..];
      FindByLabelIsFirstMatch(tail, selected);
      assert forall i :: 0 < i < |contacts| ==> contacts[i] == tail[i - 1];
      if FindByLabel(tail, selected).Some? {
        var i :| 0 <= i < |tail| && tail[i] == FindByLabel(tail, selected).value
          && Label(tail[i]) == selected && forall j :: 0 <= j < i ==> Label(tail[j]) != selected;
        assert contacts[i + 1] == tail[i];
      }
    }
  }

  /**
   * Of two contacts listed under the same label, only the earlier one can
   * ever be picked: choosing the label resolves to it.
   */
  lemma LaterNamesakeUnreachable(contacts: seq<Contact>, i: int, j: int)
    requires forall a, b :: 0 <= a < b < |contacts| ==> contacts[a].cid != contacts[b].cid
    requires 0 <= i < j < |contacts| && Label(contacts[i]) == Label(contacts[j])
    ensures FindByLabel(contacts, Label(contacts[j])) != Some(contacts[j])
  {
    var name := Label(contacts[j]);
    FindByLabelIsFirstMatch(contacts, name);
    var found := FindByLabel(contacts, name);
    var k :| 0 <= k < |contacts| && contacts[k] == found.value
      && Label(contacts[k]) == name && forall m :: 0 <= m < k ==> Label(contacts[m]) != name;
    assert k <= i;
    assert found.value.cid != contacts[j].cid;
  }

  /** The selection step shared by edit, delete and duplicate. */
  function Select(contacts: seq<Contact>, selected: Option<string>): (r: Result)
    ensures contacts == [] ==> r == Stop(NoContacts)
    ensures contacts != [] && selected.None? ==> r == Stop(Cancelled)
    ensures contacts != [] && selected.Some? ==>
      (r == Stop(NotFound) <==> FindByLabel(contacts, selected.value).None?)
    ensures contacts != [] && selected.Some? && FindByLabel(contacts, selected.value).Some? ==>
      r == Picked(FindByLabel(contacts, selected.value).value)
    ensures r.Picked? ==> r.contact in contacts && selected.Some? && Label(r.contact) == selected.value
  {
    if contacts == [] then Stop(NoContacts)
    else if selected.None? then Stop(Cancelled)
    else match FindByLabel(contacts, selected.value)
      case None => Stop(NotFound)
      case Some(c) =>
        FindByLabelIsFirstMatch(contacts, selected.value);
        Picked(c)
  }

  datatype Result = Stop(outcome: Outcome) | Picked(contact: Contact)

  /** `deleteContact`: after confirmation, deletes the first contact carrying the chosen label. */
  function DeleteContact(contacts: seq<Contact>, selected: Option<string>, confirmed: bool): (r: (Outcome, StoreCall))
    ensures contacts == [] ==> r == (NoContacts, NoCall)
    ensures r.1 != NoCall ==> (r.0 == Completed && confirmed && selected.Some?
      && FindByLabel(contacts, selected.value).Some?
      && r.1 == DeleteCalls([FindByLabel(contacts, selected.value).value.cid]))
    ensures contacts != [] && selected.None? ==> r == (Cancelled, NoCall)
    ensures contacts != [] && selected.Some? && !confirmed ==> r == (Declined, NoCall)
    ensures contacts != [] && selected.Some? && confirmed && FindByLabel(contacts, selected.value).None? ==>
      r == (NotFound, NoCall)
    ensures contacts != [] && selected.Some? && confirmed && FindByLabel(contacts, selected.value).Some? ==>
      r == (Completed, DeleteCalls([FindByLabel(contacts, selected.value).value.cid]))
  {
    if contacts == [] then (NoContacts, NoCall)
    else if selected.None? then (Cancelled, NoCall)
    else if !confirmed then (Declined, NoCall)
    else match Select(contacts, selected)
      case Stop(o) => (o, NoCall)
      case Picked(c) => (Completed, DeleteCalls([c.cid]))
  }

  /** The copy `duplicateContact` stores: " (Copy)" after the first name, the other fields unchanged. */
  function CopyOf(f: ContactFields): (copy: ContactFields)
    ensures copy.lastName == f.lastName && copy.location == f.location
    ensures copy.phone == f.phone && copy.email == f.email
    ensures |copy.firstName| == |f.firstName| + 7
    ensures copy.firstName[..|f.firstName|] == f.firstName && copy.firstName[|f.firstName|..] == " (Copy)"
  {
    f.(firstName := f.firstName + " (Copy)")
  }

  /** A copy is never the same contact as its original, so the duplicate check would not flag it. */
  lemma {:induction false} CopyIsNotSameContact(f: ContactFields)
    ensures !IsSameContact(CopyOf(f), f)
  {
    var x, s := f.firstName, " (Copy)";
    assert !IsTrimmable(s[|s| - 1]);
    if AllTrimmable(x) {
      BlankIffAllTrimmable(x);
      TrimIgnoresPadding(x, s, "");
      assert x + s + "" == x + s;
      assert Trim(s) == "(Copy)" by {
        TrimIgnoresPadding(" ", "(Copy)", "");
        assert " " + "(Copy)" + "" == s;
        TrimOfUnpadded("(Copy)");
      }
    } else {
      TrimLeftKeepsSuffix(x, s);
      var l := TrimLeft(x) + s;
      assert l[|l| - 1] == ')';
      assert TrimRight(l) == l;
      TrimLeftShape(x);
      TrimRightShape(TrimLeft(x));
      assert |Trim(x + s)| == |TrimLeft(x)| + 7 > |Trim(x)|;
    }
  }

  /** `duplicateContact`: stores a copy of the first contact carrying the chosen label. */
  function DuplicateContact(contacts: seq<Contact>, selected: Option<string>): (r: (Outcome, StoreCall))
    ensures contacts == [] ==> r == (NoContacts, NoCall)
    ensures r.1 != NoCall ==> (r.0 == Completed && selected.Some?
      && FindByLabel(contacts, selected.value).Some?
      && r.1 == AddCall(CopyOf(FindByLabel(contacts, selected.value).value.fields)))
    ensures contacts != [] && selected.Some? && FindByLabel(contacts, selected.value).Some? ==> r.1 != NoCall
    ensures contacts != [] && selected.None? ==> r == (Cancelled, NoCall)
    ensures contacts != [] && selected.Some? && FindByLabel(contacts, selected.value).None? ==> r == (NotFound, NoCall)
  {
    match Select(contacts, selected)
    case Stop(o) => (o, NoCall)
    case Picked(c) => (Completed, AddCall(CopyOf(c.fields)))
  }

  /** `mergeContacts`: stops when fewer than two contacts exist; otherwise only announces that merging is not available. */
  function MergeContacts(contacts: seq<Contact>): (outcome: Outcome)
    ensures outcome == TooFewToMerge <==> |contacts| < 2
    ensures outcome == MergeNotAvailable <==> |contacts| >= 2
  {
    if |contacts| < 2 then TooFewToMerge else MergeNotAvailable
  }

  /** A fresh record carrying a listed contact's id, fields and timestamps. */
  method ToDTO(c: Contact) returns (dto: ContactDTO)
    ensures fresh(dto)
    ensures dto.cid == c.cid && dto.createdAt == c.createdAt && dto.updatedAt == c.updatedAt
    ensures dto.firstName == Some(c.fields.firstName) && dto.lastName == Some(c.fields.lastName)
    ensures dto.location == Some(c.fields.location) && dto.phone == Some(c.fields.phone)
    ensures dto.email == Some(c.fields.email)
  {
    dto := new ContactDTO();
    dto.SetCid(c.cid);
    dto.SetFirstName(Some(c.fields.firstName));
    dto.SetLastName(Some(c.fields.lastName));
    dto.SetLocation(Some(c.fields.location));
    dto.SetPhone(Some(c.fields.phone));
    dto.SetEmail(Some(c.fields.email));
    dto.SetCreatedAt(c.createdAt);
    dto.SetUpdatedAt(c.updatedAt);
  }

  /**
   * `showEditDialog`: on OK the record's five fields are overwritten with the
   * trimmed texts before the names are checked, so a rejected edit still
   * leaves the record changed; only an accepted edit reaches the store.
   */
  method ShowEditDialog(contact: ContactDTO, dialog: Option<ContactFields>) returns (outcome: Outcome, call: StoreCall)
    modifies contact
    ensures dialog.None? ==> (outcome == Cancelled && call == NoCall
      && contact.firstName == old(contact.firstName) && contact.lastName == old(contact.lastName)
      && contact.location == old(contact.location) && contact.phone == old(contact.phone)
      && contact.email == old(contact.email))
    ensures dialog.Some? ==>
      var t := Normalized(dialog.value);
      contact.firstName == Some(t.firstName) && contact.lastName == Some(t.lastName)
      && contact.location == Some(t.location) && contact.phone == Some(t.phone) && contact.email == Some(t.email)
      && (NamesPresent(t) ==> outcome == Completed && call == UpdateCall(contact.cid, t))
      && (!NamesPresent(t) ==> outcome == NamesRequired && call == NoCall)
    ensures contact.cid == old(contact.cid)
    ensures contact.createdAt == old(contact.createdAt) && contact.updatedAt == old(contact.updatedAt)
  {
    if dialog.None? {
      return Cancelled, NoCall;
    }
    var t := Normalized(dialog.value);
    contact.SetFirstName(Some(t.firstName));
    contact.SetLastName(Some(t.lastName));
    contact.SetLocation(Some(t.location));
    contact.SetPhone(Some(t.phone));
    contact.SetEmail(Some(t.email));
    if !NamesPresent(t) {
      return NamesRequired, NoCall;
    }
    return Completed, UpdateCall(contact.cid, t);
  }

  /** `editContact`: picks the first contact with the chosen label and runs the edit dialog on it. */
  method EditContact(contacts: seq<Contact>, selected: Option<string>, dialog: Option<ContactFields>)
    returns (outcome: Outcome, call: StoreCall)
    ensures contacts == [] ==> outcome == NoContacts && call == NoCall
    ensures call != NoCall ==> (selected.Some? && dialog.Some?
      && FindByLabel(contacts, selected.value).Some?
      && call == UpdateCall(FindByLabel(contacts, selected.value).value.cid, Normalized(dialog.value))
      && NamesPresent(Normalized(dialog.value)))
    ensures contacts != [] && selected.None? ==> outcome == Cancelled && call == NoCall
    ensures contacts != [] && selected.Some? && FindByLabel(contacts, selected.value).None? ==>
      outcome == NotFound && call == NoCall
    ensures contacts != [] && selected.Some? && FindByLabel(contacts, selected.value).Some? && dialog.None? ==>
      outcome == Cancelled && call == NoCall
    ensures (contacts != [] && selected.Some? && FindByLabel(contacts, selected.value).Some? && dialog.Some?
      && !NamesPresent(Normalized(dialog.value))) ==> outcome == NamesRequired && call == NoCall
    ensures (contacts != [] && selected.Some? && FindByLabel(contacts, selected.value).Some? && dialog.Some?
      && NamesPresent(Normalized(dialog.value))) ==>
      outcome == Completed && call == UpdateCall(FindByLabel(contacts, selected.value).value.cid, Normalized(dialog.value))
  {
    var r := Select(contacts, selected);
    if r.Stop? {
      return r.outcome, NoCall;
    }
    var dto := ToDTO(r.contact);
    outcome, call := ShowEditDialog(dto, dialog);
  }
}

=== FILE: contact_form_panel.dfy ===
/**
 * `ContactFormPanel`: the five input fields of the dashboard's form. Its
 * getters hand out the trimmed text, its own pattern checks take the text
 * as given (without trimming), and losing focus on the phone or email field
 * shows a warning when the trimmed text is non-empty and fails its pattern.
 */
module ContactFormPanel {
  import opened JavaLang
  import opened ContactModel
  import opened ContactValidator

  /**
   * `r` is what `trim()` leaves of `text`: the slice of the text between a
   * whitespace-only prefix and a whitespace-only suffix, which trims to
   * itself, is empty exactly when the text is whitespace only, and otherwise
   * starts and ends on a character trim keeps.
   */
  predicate TrimmedOf(r: string, text: string) {
    && (exists k :: 0 <= k && k + |r| <= |text| && r == text[k..k + |r|]
                    && AllTrimmable(text[..k]) && AllTrimmable(text[k + |r|..]))
    && Trim(r) == r
    && (r == [] <==> AllTrimmable(text))
    && (r != [] ==> !IsTrimmable(r[0]) && !IsTrimmable(r[|r| - 1]))
  }

  lemma TrimmedIsCore(text: string)
    ensures TrimmedOf(Trim(text), text)
  {
    TrimIdempotent(text);
    TrimShape(text);
    BlankIffAllTrimmable(text);
    TrimLeftShape(text);
    TrimRightShape(TrimLeft(text));
    var k, r := TrimStart(text), Trim(text);
    assert TrimLeft(text) == text[k..];
    assert TrimLeft(text)[|r|..] == text[k + |r|..];
  }

  /** `TrimmedOf` pins its result down: only the trimmed text satisfies it. */
  lemma {:induction false} TrimmedOfIsTrim(r: string, text: string)
    requires TrimmedOf(r, text)
    ensures r == Trim(text)
  {
    var k :| 0 <= k && k + |r| <= |text| && r == text[k..k + |r|]
             && AllTrimmable(text[..k]) && AllTrimmable(text[k + |r|..]);
    var pre, post := text[..k], text[k + |r|..];
    assert text == pre + r + post;
    TrimIgnoresPadding(pre, r, post);
  }

  class ContactFormPanel {
    /** The five text fields' contents, as typed. */
    var texts: ContactFields

    constructor()
      ensures texts == ContactFields("", "", "", "", "")
    {
      texts := ContactFields("", "", "", "", "");
    }

    /** `isValidPhone`: the shared pattern, on the text as given. */
    function IsValidPhone(phone: string): (ok: bool)
      ensures ok ==> ContactValidator.IsValidPhone(phone)
      ensures Trim(phone) == phone ==> (ok <==> ContactValidator.IsValidPhone(phone))
    {
      if PhoneMatches(phone) then UntrimmedPhoneImpliesValid(phone); true else false
    }

    /** `isValidEmail`: the shared pattern, on the text as given. */
    function IsValidEmail(email: string): (ok: bool)
      ensures ok ==> ContactValidator.IsValidEmail(email)
      ensures Trim(email) == email ==> (ok <==> ContactValidator.IsValidEmail(email))
    {
      if EmailMatches(email) then UntrimmedEmailImpliesValid(email); true else false
    }

    /** `areFieldsEmpty`: some field is empty once trimmed. */
    function AreFieldsEmpty(): (empty: bool)
      reads this
      ensures empty <==> GetFirstName() == [] || GetLastName() == [] || GetLocationText() == []
                         || GetPhone() == [] || GetEmail() == []
    {
      ContactValidator.AreFieldsEmpty(texts.firstName, texts.lastName, texts.location, texts.phone, texts.email)
    }

    /** The trimmed getters: each returns its field's text with the surrounding whitespace cut away. */
    function GetFirstName(): (r: string)
      reads this
      ensures TrimmedOf(r, texts.firstName)
    {
      TrimmedIsCore(texts.firstName);
      Trim(texts.firstName)
    }

    function GetLastName(): (r: string)
      reads this
      ensures TrimmedOf(r, texts.lastName)
    {
      TrimmedIsCore(texts.lastName);
      Trim(texts.lastName)
    }

    function GetLocationText(): (r: string)
      reads this
      ensures TrimmedOf(r, texts.location)
    {
      TrimmedIsCore(texts.location);
      Trim(texts.location)
    }

    function GetPhone(): (r: string)
      reads this
      ensures TrimmedOf(r, texts.phone)
    {
      TrimmedIsCore(texts.phone);
      Trim(texts.phone)
    }

    function GetEmail(): (r: string)
      reads this
      ensures TrimmedOf(r, texts.email)
    {
      TrimmedIsCore(texts.email);
      Trim(texts.email)
    }

    /** `setContactData`: the fields hold the values given; the getters return them trimmed. */
    method SetContactData(firstName: string, lastName: string, location: string, phone: string, email: string)
      modifies this
      ensures texts == ContactFields(firstName, lastName, location, phone, email)
      ensures GetFirstName() == Trim(firstName) && GetLastName() == Trim(lastName)
      ensures GetLocationText() == Trim(location) && GetPhone() == Trim(phone) && GetEmail() == Trim(email)
    {
      texts := ContactFields(firstName, lastName, location, phone, email);
    }

    /** `clearFields`: every field is emptied, after which the form counts as empty. */
    method ClearFields()
      modifies this
      ensures texts == ContactFields("", "", "", "", "")
      ensures AreFieldsEmpty()
    {
      texts := ContactFields("", "", "", "", "");
    }

    /** `validatePhoneField`, run when the phone field loses focus: whether the warning is shown. */
    method ValidatePhoneField() returns (warn: bool)
      ensures warn <==> PhoneFieldWarning(texts.phone)
      ensures warn ==> Failed(ValidateFields(texts.firstName, texts.lastName, texts.location, texts.phone, texts.email))
    {
      var text := GetPhone();
      TrimIdempotent(texts.phone);
      warn := text != [] && !IsValidPhone(text);
    }

    /** `validateEmailField`, run when the email field loses focus: whether the warning is shown. */
    method ValidateEmailField() returns (warn: bool)
      ensures warn <==> EmailFieldWarning(texts.email)
      ensures warn ==> Failed(ValidateFields(texts.firstName, texts.lastName, texts.location, texts.phone, texts.email))
    {
      var text := GetEmail();
      TrimIdempotent(texts.email);
      warn := text != [] && !IsValidEmail(text);
    }
  }
}

=== FILE: contact_logic.dfy ===
/**
 * Contact identity as the add/edit screens see it: two contacts are the same
 * when their five text fields agree once trimmed, compared case-sensitively;
 * the id and the timestamps play no part.
 */
module ContactLogic {
  import opened JavaLang
  import opened ContactModel

  /** `isSameContact`: the five trimmed fields are equal. */
  predicate IsSameContact(a: ContactFields, b: ContactFields) {
    Trim(a.firstName) == Trim(b.firstName)
    && Trim(a.lastName) == Trim(b.lastName)
    && Trim(a.location) == Trim(b.location)
    && Trim(a.phone) == Trim(b.phone)
    && Trim(a.email) == Trim(b.email)
  }

  /** The five fields, each trimmed: the key `isSameContact` compares. */
  function Normalized(c: ContactFields): ContactFields {
    ContactFields(Trim(c.firstName), Trim(c.lastName), Trim(c.location), Trim(c.phone), Trim(c.email))
  }

  /** A trimmed key trims to itself, so a contact is the same as its own key. */
  lemma NormalizedIsSame(c: ContactFields)
    ensures Normalized(Normalized(c)) == Normalized(c)
    ensures IsSameContact(c, Normalized(c))
  {
    TrimIdempotent(c.firstName);
    TrimIdempotent(c.lastName);
    TrimIdempotent(c.location);
    TrimIdempotent(c.phone);
    TrimIdempotent(c.email);
  }

  /** Two contacts are the same exactly when their trimmed keys are equal. */
  lemma SameContactIffSameKey(a: ContactFields, b: ContactFields)
    ensures IsSameContact(a, b) <==> Normalized(a) == Normalized(b)
  {
  }

  /** `isSameContact` is an equivalence: reflexive, symmetric and transitive. */
  lemma SameContactIsEquivalence(a: ContactFields, b: ContactFields, c: ContactFields)
    ensures IsSameContact(a, a)
    ensures IsSameContact(a, b) ==> IsSameContact(b, a)
    ensures IsSameContact(a, b) && IsSameContact(b, c) ==> IsSameContact(a, c)
  {
    SameContactIffSameKey(a, b);
    SameContactIffSameKey(b, c);
    SameContactIffSameKey(a, c);
  }

  /** `isDuplicateContact`: scans the list and stops at the first contact that is the same. */
  function IsDuplicateContact(c: ContactFields, existing: seq<ContactFields>): (dup: bool)
    ensures dup <==> exists i :: 0 <= i < |existing| && IsSameContact(c, existing[i])
  {
    if existing == [] then false
    else if IsSameContact(c, existing[0]) then true
    else IsDuplicateContact(c, existing[1..])
  }

  /** A contact is always a duplicate of a list it has been appended to. */
  lemma DuplicateOfAppended(c: ContactFields, existing: seq<ContactFields>)
    ensures IsDuplicateContact(c, existing + [c])
  {
    SameContactIsEquivalence(c, c, c);
    assert (existing + [c])[|existing|] == c;
  }

  /** Contacts with the same trimmed key are duplicates of the same lists. */
  lemma DuplicateDependsOnlyOnKey(c: ContactFields, d: ContactFields, existing: seq<ContactFields>)
    requires Normalized(c) == Normalized(d)
    ensures IsDuplicateContact(c, existing) == IsDuplicateContact(d, existing)
  {
    forall i | 0 <= i < |existing|
      ensures IsSameContact(c, existing[i]) == IsSameContact(d, existing[i])
    {
      SameContactIffSameKey(c, existing[i]);
      SameContactIffSameKey(d, existing[i]);
    }
  }

  /** Each field surrounded by the same padding. */
  function Padded(c: ContactFields, pre: string, post: string): ContactFields {
    ContactFields(pre + c.firstName + post, pre + c.lastName + post, pre + c.location + post,
                  pre + c.phone + post, pre + c.email + post)
  }

  /** Surrounding every field with whitespace does not change whether the contact is a duplicate. */
  lemma DuplicateIgnoresPadding(c: ContactFields, pre: string, post: string, existing: seq<ContactFields>)
    requires AllTrimmable(pre) && AllTrimmable(post)
    ensures IsDuplicateContact(Padded(c, pre, post), existing) == IsDuplicateContact(c, existing)
  {
    TrimIgnoresPadding(pre, c.firstName, post);
    TrimIgnoresPadding(pre, c.lastName, post);
    TrimIgnoresPadding(pre, c.location, post);
    TrimIgnoresPadding(pre, c.phone, post);
    TrimIgnoresPadding(pre, c.email, post);
    DuplicateDependsOnlyOnKey(Padded(c, pre, post), c, existing);
  }

  /** `createContact`: a fresh record holding the five values verbatim, id 0 and no timestamps. */
  method CreateContact(firstName: string, lastName: string, location: string, phone: string, email: string)
    returns (c: ContactDTO)
    ensures fresh(c)
    ensures c.firstName == Some(firstName) && c.lastName == Some(lastName) && c.location == Some(location)
    ensures c.phone == Some(phone) && c.email == Some(email)
    ensures c.cid == 0 && c.createdAt.None? && c.updatedAt.None?
  {
    c := new ContactDTO();
    c.SetFirstName(Some(firstName));
    c.SetLastName(Some(lastName));
    c.SetLocation(Some(location));
    c.SetPhone(Some(phone));
    c.SetEmail(Some(email));
  }
}

=== FILE: contact_model.dfy ===
/**
 * The contact record. `ContactDTO` is a mutable bean: a class whose setters
 * each overwrite one field. Its two derived values, the age in days and
 * whether it was modified in the last week, take the current time as a
 * parameter. Timestamps are whole seconds on a single local time line.
 */
module ContactModel {
  import opened JavaLang

  /** A `LocalDateTime`, as seconds since an arbitrary origin. */
  type Timestamp = int

  const SecondsPerDay: int := 86400

  /** The five user-editable text fields of a contact, in table-column order. */
  datatype ContactFields = ContactFields(firstName: string, lastName: string, location: string, phone: string, email: string)

  /** A contact as the store lists it: its id, its fields and its two timestamps. */
  datatype Contact = Contact(cid: int, fields: ContactFields, createdAt: Option<Timestamp>, updatedAt: Option<Timestamp>)

  /**
   * The store operation a screen handler ends with. The store itself is not
   * modelled: a handler returns the call it makes, and what the store answers
   * (a new id, the reloaded list) comes back in as a parameter.
   */
  datatype StoreCall =
    | NoCall
    | AddCall(fields: ContactFields)
    | UpdateCall(cid: int, fields: ContactFields)
    | DeleteCalls(cids: seq<int>)

  /**
   * `Duration.toDays`: the whole days in a span of seconds, truncated toward
   * zero for a negative span as well (Dafny's `/` is Euclidean).
   */
  function ToDays(seconds: int): (days: int)
    ensures seconds >= 0 ==> days >= 0 && days * SecondsPerDay <= seconds < (days + 1) * SecondsPerDay
    ensures seconds < 0 ==> days <= 0 && (days - 1) * SecondsPerDay < seconds <= days * SecondsPerDay
  {
    if seconds >= 0 then seconds / SecondsPerDay else -((-seconds) / SecondsPerDay)
  }

  /** Whole days from `createdAt` to `now`, truncated toward zero; 0 without a creation time. */
  function AgeInDays(createdAt: Option<Timestamp>, now: Timestamp): (days: int)
    ensures createdAt.None? ==> days == 0
    ensures createdAt.Some? && createdAt.value <= now ==>
      days >= 0 && days * SecondsPerDay <= now - createdAt.value < (days + 1) * SecondsPerDay
    ensures createdAt.Some? && createdAt.value > now ==>
      days <= 0 && (days - 1) * SecondsPerDay < now - createdAt.value <= days * SecondsPerDay
  {
    if createdAt.None? then 0 else ToDays(now - createdAt.value)
  }

  /** What a date display getter shows: "N/A", or the timestamp rendered with a pattern. */
  datatype DateText = NotAvailable | Formatted(at: Timestamp, pattern: string)

  const DisplayPattern: string := "MMM dd, yyyy HH:mm"
  const DateOnlyPattern: string := "MMM dd, yyyy"

  /** `at != null ? at.format(pattern) : "N/A"` */
  function Display(at: Option<Timestamp>, pattern: string): (t: DateText)
    ensures t == NotAvailable <==> at.None?
    ensures t.Formatted? ==> t.at == at.value && t.pattern == pattern
  {
    if at.Some? then Formatted(at.value, pattern) else NotAvailable
  }

  /** `ContactDTO`: every reference field starts out `null` and `cid` starts at 0. */
  class ContactDTO {
    var cid: int
    var firstName: Option<string>
    var lastName: Option<string>
    var location: Option<string>
    var phone: Option<string>
    var email: Option<string>
    var createdAt: Option<Timestamp>
    var updatedAt: Option<Timestamp>

    constructor()
      ensures cid == 0
      ensures firstName.None? && lastName.None? && location.None? && phone.None? && email.None?
      ensures createdAt.None? && updatedAt.None?
    {
      cid := 0;
      firstName, lastName, location, phone, email := None, None, None, None, None;
      createdAt, updatedAt := None, None;
    }

    method SetCid(v: int)
      modifies this`cid
      ensures cid == v
    {
      cid := v;
    }

    method SetFirstName(v: Option<string>)
      modifies this`firstName
      ensures firstName == v
    {
      firstName := v;
    }

    method SetLastName(v: Option<string>)
      modifies this`lastName
      ensures lastName == v
    {
      lastName := v;
    }

    method SetLocation(v: Option<string>)
      modifies this`location
      ensures location == v
    {
      location := v;
    }

    method SetPhone(v: Option<string>)
      modifies this`phone
      ensures phone == v
    {
      phone := v;
    }

    method SetEmail(v: Option<string>)
      modifies this`email
      ensures email == v
    {
      email := v;
    }

    method SetCreatedAt(v: Option<Timestamp>)
      modifies this`createdAt
      ensures createdAt == v
    {
      createdAt := v;
    }

    method SetUpdatedAt(v: Option<Timestamp>)
      modifies this`updatedAt
      ensures updatedAt == v
    {
      updatedAt := v;
    }

    function CreatedAtDisplay(): (t: DateText)
      reads this`createdAt
      ensures t == NotAvailable <==> createdAt.None?
    {
      Display(createdAt, DisplayPattern)
    }

    function UpdatedAtDisplay(): (t: DateText)
      reads this`updatedAt
      ensures t == NotAvailable <==> updatedAt.None?
    {
      Display(updatedAt, DisplayPattern)
    }

    function CreatedAtDateOnly(): (t: DateText)
      reads this`createdAt
      ensures t == NotAvailable <==> createdAt.None?
    {
      Display(createdAt, DateOnlyPattern)
    }

    function UpdatedAtDateOnly(): (t: DateText)
      reads this`updatedAt
      ensures t == NotAvailable <==> updatedAt.None?
    {
      Display(updatedAt, DateOnlyPattern)
    }

    /** Modified strictly after the moment seven days before `now`. */
    function IsRecentlyModified(now: Timestamp): (recent: bool)
      reads this`updatedAt
      ensures updatedAt.None? ==> !recent
      ensures recent <==> updatedAt.Some? && now - updatedAt.value < 7 * SecondsPerDay
    {
      updatedAt.Some? && updatedAt.value > now - 7 * SecondsPerDay
    }

    /** `getAgeInDays`: the record's age as `AgeInDays` gives it, 0 while the creation time is null. */
    function GetAgeInDays(now: Timestamp): (days: int)
      reads this`createdAt
      ensures days == AgeInDays(createdAt, now)
      ensures createdAt.None? ==> days == 0
    {
      AgeInDays(createdAt, now)
    }
  }
}

=== FILE: contact_page.dfy ===
/**
 * The contact screen: five input fields, a searchable table and the id of
 * the contact being edited (-1 when none). The two copies of this screen
 * share their add, edit, delete, filter and selection handlers except for the
 * phone pattern, which accepts 11 to 14 digits after the leading one in the
 * current copy and 9 to 14 in the older one, so those handlers live in one
 * class whose lower bound is fixed at construction. The focus-lost warnings
 * here are the current copy's; the older copy's listeners are
 * `LegacyContactPage.FocusValidator`.
 *
 * The table's selection is Swing state; the handlers receive the selected
 * view rows as parameters. The store is reached only through the `StoreCall`
 * a handler returns, and the ids and lists it answers with come back in as
 * parameters.
 */
module ContactPage {
  import opened JavaLang
  import opened ContactModel
  import opened ContactValidator
  import opened ContactLogic
  import opened TableRows

  /** `\d{11,14}` in the current screen. */
  const CurrentPhoneMinDigits: nat := 11
  /** `\d{9,14}` in the older screen. */
  const LegacyPhoneMinDigits: nat := 9
  const PhoneMaxDigits: nat := 14

  const EmptyInputs: ContactFields := ContactFields("", "", "", "", "")

  /** How a handler ended, that is, which dialog it showed. */
  datatype Outcome =
    | InvalidInput(reason: Validation)
    | DuplicateFound
    | NoSelection
    | Declined
    | Done

  /**
   * The screen's own `validateFields`: emptiness on the trimmed text, but the
   * phone and email patterns on the text exactly as typed.
   */
  function ScreenValidation(inputs: ContactFields, phoneMinDigits: nat): Validation {
    FirstFailure(
      AreFieldsEmpty(inputs.firstName, inputs.lastName, inputs.location, inputs.phone, inputs.email),
      PhonePattern(inputs.phone, phoneMinDigits, PhoneMaxDigits),
      EmailMatches(inputs.email))
  }

  /**
   * Whatever the current screen accepts, the shared validator accepts too;
   * the padded phone number below shows that the converse fails.
   */
  lemma ScreenStricterThanValidator(inputs: ContactFields)
    requires ScreenValidation(inputs, CurrentPhoneMinDigits) == Valid
    ensures ValidateFields(inputs.firstName, inputs.lastName, inputs.location, inputs.phone, inputs.email) == Valid
  {
    UntrimmedPhoneImpliesValid(inputs.phone);
    UntrimmedEmailImpliesValid(inputs.email);
  }

  /**
   * A valid phone typed with a leading space passes the emptiness check and
   * then fails the screen's phone check, although the shared validator, which
   * trims first, accepts the same inputs.
   */
  lemma PaddedPhoneRejectedByScreen(inputs: ContactFields, typed: string)
    requires inputs.phone == " " + typed && PhoneMatches(typed) && EmailMatches(inputs.email)
    requires !IsBlank(inputs.firstName) && !IsBlank(inputs.lastName) && !IsBlank(inputs.location)
    ensures ScreenValidation(inputs, CurrentPhoneMinDigits) == InvalidPhone
    ensures ValidateFields(inputs.firstName, inputs.lastName, inputs.location, inputs.phone, inputs.email) == Valid
  {
    UntrimmedPhoneImpliesValid(typed);
    TrimIgnoresPadding(" ", typed, "");
    assert " " + typed + "" == inputs.phone;
    UntrimmedEmailImpliesValid(inputs.email);
  }

  /** The older screen's phone check accepts everything the current one does. */
  lemma LegacyPhoneAcceptsMore(inputs: ContactFields)
    ensures ScreenValidation(inputs, CurrentPhoneMinDigits) == Valid
        ==> ScreenValidation(inputs, LegacyPhoneMinDigits) == Valid
  {
  }

  /** A ten-digit number that only the older screen accepts. */
  lemma LegacyPhoneAcceptsTenDigits()
    ensures PhonePattern("+1555123456", LegacyPhoneMinDigits, PhoneMaxDigits)
    ensures !PhonePattern("+1555123456", CurrentPhoneMinDigits, PhoneMaxDigits)
  {
    assert |"+1555123456"| == 11;
  }

  /**
   * The duplicate check only sees the rows the search leaves visible: a
   * contact identical to a hidden row is not reported as a duplicate.
   */
  lemma SearchHidesDuplicates()
    ensures var ada := ContactFields("Ada", "Lovelace", "London", "+155512345678", "ada@example.org");
      var rows := [Row(1, ada)];
      var query := "a query longer than any field";
      ContactLogic.IsDuplicateContact(ada, Columns(rows))
      && !ContactLogic.IsDuplicateContact(ada, Columns(ViewRows(rows, query)))
  {
    var ada := ContactFields("Ada", "Lovelace", "London", "+155512345678", "ada@example.org");
    var rows := [Row(1, ada)];
    var query := "a query longer than any field";
    SameContactIsEquivalence(ada, ada, ada);
    assert Columns(rows)[0] == ada;
    assert !RowMatches(query, rows[0]);
    ViewShowsMatching(rows, query, rows[0]);
    assert ViewRows(rows, query) == [];
  }

  class ContactPage {
    /** The lower bound of the phone pattern's digit count. */
    const phoneMinDigits: nat
    /** The table model's rows, in model order. */
    var rows: seq<Row>
    /** The search box's text. */
    var query: string
    /** The five input fields, as typed. */
    var inputs: ContactFields
    /** The id of the contact loaded into the form, or -1. */
    var selectedCid: int

    /** The screen is built with empty inputs and search, then loads the store's contacts. */
    constructor(phoneMinDigits: nat, contacts: seq<Contact>)
      ensures this.phoneMinDigits == phoneMinDigits
      ensures rows == RowsOf(contacts) && query == [] && inputs == EmptyInputs && selectedCid == -1
    {
      this.phoneMinDigits := phoneMinDigits;
      rows, query, inputs, selectedCid := [], [], EmptyInputs, -1;
      new;
      LoadContacts(contacts);
    }

    /** The rows the table shows under the current search. */
    function View(): seq<Row>
      reads this
    {
      ViewRows(rows, query)
    }

    /** What `validateFields` reports for the current inputs. */
    function InputValidation(): Validation
      reads this
    {
      ScreenValidation(inputs, phoneMinDigits)
    }

    /** `filter`, run whenever the search text changes. */
    method Filter(searchQuery: string)
      modifies this`query
      ensures query == searchQuery
      ensures searchQuery == [] ==> View() == rows
    {
      query := searchQuery;
    }

    /** `loadContacts`: clears the table, then appends one row per contact. */
    method LoadContacts(contacts: seq<Contact>)
      modifies this`rows
      ensures rows == RowsOf(contacts)
    {
      rows := [];
      for i := 0 to |contacts|
        invariant rows == RowsOf(contacts[..i])
      {
        rows := rows + [RowOf(contacts[i])];
      }
      assert contacts[..|contacts|] == contacts;
    }

    /** `clearFields`: empties the five inputs and forgets the selected id. */
    method ClearFields()
      modifies this`inputs, this`selectedCid
      ensures inputs == EmptyInputs && selectedCid == -1
      ensures InputValidation() == MissingFields
    {
      inputs, selectedCid := EmptyInputs, -1;
      assert IsBlank("");
    }

    /**
     * The current screen's focus-lost listener on the phone field: a warning
     * when the trimmed text is non-empty and fails the pattern. (The older
     * screen's listeners are `LegacyContactPage.FocusValidator`.)
     */
    method OnPhoneFocusLost() returns (warn: bool)
      ensures warn <==> Trim(inputs.phone) != [] && !PhonePattern(Trim(inputs.phone), phoneMinDigits, PhoneMaxDigits)
      ensures phoneMinDigits == CurrentPhoneMinDigits ==> (warn <==> PhoneFieldWarning(inputs.phone))
    {
      var text := Trim(inputs.phone);
      warn := text != [] && !PhonePattern(text, phoneMinDigits, PhoneMaxDigits);
    }

    /** The current screen's focus-lost listener on the email field. */
    method OnEmailFocusLost() returns (warn: bool)
      ensures warn <==> EmailFieldWarning(inputs.email)
    {
      var text := Trim(inputs.email);
      warn := text != [] && !EmailMatches(text);
    }

    /**
     * The selection listener: when a row is selected its id and its five
     * values are copied into the form; with no selection nothing happens.
     */
    method OnSelectionChanged(selectedRow: int)
      requires selectedRow == -1 || 0 <= selectedRow < |View()|
      modifies this`inputs, this`selectedCid
      ensures selectedRow == -1 ==> inputs == old(inputs) && selectedCid == old(selectedCid)
      ensures selectedRow != -1 ==>
        selectedCid == View()[selectedRow].cid && inputs == View()[selectedRow].fields
    {
      if selectedRow != -1 {
        var r := View()[selectedRow];
        selectedCid, inputs := r.cid, r.fields;
      }
    }

    /**
     * `isDuplicateContact`: compares the trimmed inputs with the trimmed
     * columns of every row the table shows; rows the search hides are not
     * looked at.
     */
    method IsDuplicateContact() returns (dup: bool)
      ensures dup <==> exists i :: 0 <= i < |View()| && IsSameContact(inputs, View()[i].fields)
      ensures dup == ContactLogic.IsDuplicateContact(inputs, Columns(View()))
    {
      var view := View();
      var i := 0;
      while i < |view|
        invariant 0 <= i <= |view|
        invariant forall j :: 0 <= j < i ==> !IsSameContact(inputs, view[j].fields)
      {
        if IsSameContact(inputs, view[i].fields) {
          return true;
        }
        i := i + 1;
      }
      return false;
    }

    /**
     * `handleAddContact`: on valid, non-duplicate input, stores the contact as
     * typed, appends one row carrying the id the store returned, and clears
     * the form; otherwise nothing changes.
     */
    method HandleAddContact(assignedCid: int) returns (outcome: Outcome, call: StoreCall)
      modifies this`rows, this`inputs, this`selectedCid
      ensures old(InputValidation()) != Valid ==>
        outcome == InvalidInput(old(InputValidation())) && call == NoCall
        && rows == old(rows) && inputs == old(inputs) && selectedCid == old(selectedCid)
      ensures old(InputValidation()) == Valid && ContactLogic.IsDuplicateContact(old(inputs), Columns(old(View()))) ==>
        outcome == DuplicateFound && call == NoCall
        && rows == old(rows) && inputs == old(inputs) && selectedCid == old(selectedCid)
      ensures old(InputValidation()) == Valid && !ContactLogic.IsDuplicateContact(old(inputs), Columns(old(View()))) ==>
        outcome == Done && call == AddCall(old(inputs))
        && rows == old(rows) + [Row(assignedCid, old(inputs))]
        && inputs == EmptyInputs && selectedCid == -1
    {
      var v := InputValidation();
      if v != Valid {
        return InvalidInput(v), NoCall;
      }
      var dup := IsDuplicateContact();
      if dup {
        return DuplicateFound, NoCall;
      }
      var fields := inputs;
      rows := rows + [Row(assignedCid, fields)];
      ClearFields();
      return Done, AddCall(fields);
    }

    /**
     * `handleEditContact`: with no contact selected it only reports the
     * error; otherwise, on valid input, it stores the inputs as typed under
     * the selected id, reloads the table and clears the form.
     */
    method HandleEditContact(reloaded: seq<Contact>) returns (outcome: Outcome, call: StoreCall)
      modifies this`rows, this`inputs, this`selectedCid
      ensures old(selectedCid) == -1 ==>
        outcome == NoSelection && call == NoCall
        && rows == old(rows) && inputs == old(inputs) && selectedCid == -1
      ensures old(selectedCid) != -1 && old(InputValidation()) != Valid ==>
        outcome == InvalidInput(old(InputValidation())) && call == NoCall
        && rows == old(rows) && inputs == old(inputs) && selectedCid == old(selectedCid)
      ensures old(selectedCid) != -1 && old(InputValidation()) == Valid ==>
        outcome == Done && call == UpdateCall(old(selectedCid), old(inputs))
        && rows == RowsOf(reloaded) && inputs == EmptyInputs && selectedCid == -1
    {
      if selectedCid == -1 {
        return NoSelection, NoCall;
      }
      var v := InputValidation();
      if v != Valid {
        return InvalidInput(v), NoCall;
      }
      call := UpdateCall(selectedCid, inputs);
      LoadContacts(reloaded);
      ClearFields();
      outcome := Done;
    }

    /**
     * `handleDeleteContact`: with no row selected it only reports the error;
     * if the user confirms, it deletes the id of every selected view row, in
     * selection order, then reloads the table and clears the form.
     */
    method HandleDeleteContact(selectedRows: seq<int>, confirmed: bool, reloaded: seq<Contact>)
      returns (outcome: Outcome, call: StoreCall)
      requires forall k :: 0 <= k < |selectedRows| ==> 0 <= selectedRows[k] < |View()|
      modifies this`rows, this`inputs, this`selectedCid
      ensures |selectedRows| == 0 ==>
        outcome == NoSelection && call == NoCall
        && rows == old(rows) && inputs == old(inputs) && selectedCid == old(selectedCid)
      ensures |selectedRows| > 0 && !confirmed ==>
        outcome == Declined && call == NoCall
        && rows == old(rows) && inputs == old(inputs) && selectedCid == old(selectedCid)
      ensures |selectedRows| > 0 && confirmed ==>
        outcome == Done && call.DeleteCalls? && |call.cids| == |selectedRows|
        && (forall k :: 0 <= k < |selectedRows| ==> call.cids[k] == old(View())[selectedRows[k]].cid)
        && rows == RowsOf(reloaded) && inputs == EmptyInputs && selectedCid == -1
    {
      if |selectedRows| == 0 {
        return NoSelection, NoCall;
      }
      if !confirmed {
        return Declined, NoCall;
      }
      var view := View();
      var cids: seq<int> := [];
      for k := 0 to |selectedRows|
        invariant |cids| == k
        invariant forall j :: 0 <= j < k ==> cids[j] == view[selectedRows[j]].cid
      {
        cids := cids + [view[selectedRows[k]].cid];
      }
      LoadContacts(reloaded);
      ClearFields();
      return Done, DeleteCalls(cids);
    }
  }
}

=== FILE: contact_table_panel.dfy ===
/**
 * `ContactTablePanel`: the table component the dashboard reuses. It owns the
 * row buffer (the table model) and the search query; the row the user has
 * selected, a view index or -1, is supplied by the caller.
 */
module ContactTablePanel {
  import opened JavaLang
  import opened ContactModel
  import opened TableRows

  class ContactTablePanel {
    /** The table model's rows, in model order. */
    var rows: seq<Row>
    /** The search box's text. */
    var query: string

    constructor()
      ensures rows == [] && query == []
    {
      rows, query := [], [];
    }

    /** The rows currently shown. */
    function View(): seq<Row>
      reads this
    {
      ViewRows(rows, query)
    }

    /** `loadContacts`: clears the table, then appends one row per contact. */
    method LoadContacts(contacts: seq<Contact>)
      modifies this`rows
      ensures rows == RowsOf(contacts)
    {
      rows := [];
      for i := 0 to |contacts|
        invariant rows == RowsOf(contacts[..i])
      {
        rows := rows + [RowOf(contacts[i])];
      }
      assert contacts[..|contacts|] == contacts;
    }

    /** `addContact`: appends one row at the end and leaves the others alone. */
    method AddContact(c: Contact)
      modifies this`rows
      ensures rows == old(rows) + [RowOf(c)]
    {
      rows := rows + [RowOf(c)];
    }

    /** `filter`, run whenever the search text changes. */
    method Filter(searchQuery: string)
      modifies this`query
      ensures query == searchQuery
      ensures searchQuery == [] ==> View() == rows
    {
      query := searchQuery;
    }

    /** `getSelectedCid`: the id in column 0 of the selected view row, or -1 when nothing is selected. */
    function GetSelectedCid(selectedRow: int): (cid: int)
      reads this
      requires selectedRow == -1 || 0 <= selectedRow < |View()|
      ensures selectedRow == -1 ==> cid == -1
      ensures selectedRow != -1 ==> cid == View()[selectedRow].cid
    {
      if selectedRow != -1 then View()[selectedRow].cid else -1
    }

    /** `hasSelection` */
    function HasSelection(selectedRow: int): (selected: bool)
      ensures selected <==> selectedRow != -1
    {
      selectedRow != -1
    }

    /**
     * While every id in the table is non-negative, "has a selection" and
     * "the selected id is not -1" agree.
     */
    lemma SelectionAgreesWithCid(selectedRow: int)
      requires selectedRow == -1 || 0 <= selectedRow < |View()|
      requires forall i :: 0 <= i < |rows| ==> rows[i].cid >= 0
      ensures HasSelection(selectedRow) <==> GetSelectedCid(selectedRow) != -1
    {
      if selectedRow != -1 {
        ViewShowsMatching(rows, query, View()[selectedRow]);
      }
    }
  }
}

=== FILE: contact_validator.dfy ===
/**
 * Field validation for a contact: the trimmed-emptiness check, the E.164-like
 * phone pattern `^\+[1-9]\d{11,14}$` and the email pattern
 * `^[a-zA-Z0-9._%+-]+@[a-zA-Z0-9.-]+\.[a-zA-Z]{2,}$`, each written as a
 * predicate over characters, and the order in which the checks run.
 */
module ContactValidator {
  import opened JavaLang

  // ---------------------------------------------------------------------------
  // Character classes
  // ---------------------------------------------------------------------------

  /** `\d` without UNICODE_CHARACTER_CLASS: an ASCII digit. */
  predicate IsDigit(c: char) { '0' <= c <= '9' }

  predicate IsLetter(c: char) { 'a' <= c <= 'z' || 'A' <= c <= 'Z' }

  /** `[a-zA-Z0-9._%+-]` */
  predicate IsLocalChar(c: char) {
    IsLetter(c) || IsDigit(c) || c == '.' || c == '_' || c == '%' || c == '+' || c == '-'
  }

  /** `[a-zA-Z0-9.-]` */
  predicate IsDomainChar(c: char) {
    IsLetter(c) || IsDigit(c) || c == '.' || c == '-'
  }

  predicate AllOf(s: string, p: char -> bool) {
    forall i :: 0 <= i < |s| ==> p(s[i])
  }

  // ---------------------------------------------------------------------------
  // The two patterns, matched against the whole string
  // ---------------------------------------------------------------------------

  /**
   * `^\+[1-9]\d{minRest,maxRest}$`: a plus sign, a leading digit 1-9, then
   * between `minRest` and `maxRest` further digits.
   */
  predicate PhonePattern(s: string, minRest: nat, maxRest: nat) {
    |s| >= 2 && s[0] == '+' && '1' <= s[1] <= '9'
    && minRest <= |s| - 2 <= maxRest
    && AllOf(s[2..], IsDigit)
  }

  /** `PHONE_PATTERN.matcher(s).matches()`: 11 to 14 digits after the leading one. */
  predicate PhoneMatches(s: string) {
    PhonePattern(s, 11, 14)
  }

  /**
   * `s` splits as L `@` D `.` T with the `@` at index `at` and the `.` at index
   * `dot`: L over `[a-zA-Z0-9._%+-]`, D over `[a-zA-Z0-9.-]`, both non-empty,
   * and T at least two ASCII letters.
   */
  predicate EmailSplitAt(s: string, at: int, dot: int) {
    0 < at && at + 1 < dot && dot + 2 < |s|
    && AllOf(s[..at], IsLocalChar)
    && s[at] == '@'
    && AllOf(s[at + 1..dot], IsDomainChar)
    && s[dot] == '.'
    && AllOf(s[dot + 1..], IsLetter)
  }

  /**
   * `EMAIL_PATTERN.matcher(s).matches()`: the regex matches exactly when some
   * choice of the `@` and of the final `.` splits the string as required
   * (the backtracking matcher tries them all).
   */
  predicate EmailMatches(s: string) {
    exists at, dot | 0 <= at < |s| && at < dot < |s| :: EmailSplitAt(s, at, dot)
  }

  // ---------------------------------------------------------------------------
  // ContactValidator
  // ---------------------------------------------------------------------------

  /** `isValidPhone`: the pattern applied to the trimmed text. */
  predicate IsValidPhone(phone: string) {
    PhoneMatches(Trim(phone))
  }

  /** `isValidEmail`: the pattern applied to the trimmed text. */
  predicate IsValidEmail(email: string) {
    EmailMatches(Trim(email))
  }

  /** `areFieldsEmpty`: some field is empty once trimmed. */
  predicate AreFieldsEmpty(firstName: string, lastName: string, location: string, phone: string, email: string) {
    IsBlank(firstName) || IsBlank(lastName) || IsBlank(location) || IsBlank(phone) || IsBlank(email)
  }

  /** The outcome of a validation run: which error dialog, if any, is shown. */
  datatype Validation = Valid | MissingFields | InvalidPhone | InvalidEmail

  /**
   * The order every copy of the validation follows: emptiness first, then the
   * phone, then the email; the first check that fails decides the outcome.
   */
  function FirstFailure(empty: bool, phoneOk: bool, emailOk: bool): (v: Validation)
    ensures v == Valid <==> !empty && phoneOk && emailOk
    ensures v == MissingFields <==> empty
    ensures v == InvalidPhone <==> !empty && !phoneOk
    ensures v == InvalidEmail <==> !empty && phoneOk && !emailOk
  {
    if empty then MissingFields
    else if !phoneOk then InvalidPhone
    else if !emailOk then InvalidEmail
    else Valid
  }

  /** `validateFields` returns true (failure) exactly when the outcome is not `Valid`. */
  predicate Failed(v: Validation) { v != Valid }

  /** The text of the error dialog shown for an outcome. */
  function Message(v: Validation): (m: Option<string>)
    ensures m.None? <==> v == Valid
  {
    match v
    case Valid => None
    case MissingFields => Some("All fields are required.")
    case InvalidPhone => Some("Invalid phone number. Please use E.164 format (e.g., +15551234567).")
    case InvalidEmail => Some("Invalid email address. Please use example@gmail.com format.")
  }

  /** `ContactValidator.validateFields` */
  function ValidateFields(firstName: string, lastName: string, location: string, phone: string, email: string): (v: Validation)
    ensures !Failed(v) <==>
      !IsBlank(firstName) && !IsBlank(lastName) && !IsBlank(location) && !IsBlank(phone) && !IsBlank(email)
      && IsValidPhone(phone) && IsValidEmail(email)
    ensures v == MissingFields <==> AreFieldsEmpty(firstName, lastName, location, phone, email)
    ensures v == InvalidPhone <==> !AreFieldsEmpty(firstName, lastName, location, phone, email) && !IsValidPhone(phone)
    ensures v == InvalidEmail <==>
      !AreFieldsEmpty(firstName, lastName, location, phone, email) && IsValidPhone(phone) && !IsValidEmail(email)
  {
    FirstFailure(AreFieldsEmpty(firstName, lastName, location, phone, email), IsValidPhone(phone), IsValidEmail(email))
  }

  /**
   * The focus-lost warning on the phone field: the trimmed text is not empty
   * and the pattern rejects it.
   */
  predicate PhoneFieldWarning(text: string) {
    Trim(text) != [] && !PhoneMatches(Trim(text))
  }

  /** The focus-lost warning on the email field. */
  predicate EmailFieldWarning(text: string) {
    Trim(text) != [] && !EmailMatches(Trim(text))
  }

  /** A field that draws a focus-lost warning can never pass `validateFields`. */
  lemma WarnedFieldFailsValidation(firstName: string, lastName: string, location: string, phone: string, email: string)
    requires PhoneFieldWarning(phone) || EmailFieldWarning(email)
    ensures Failed(ValidateFields(firstName, lastName, location, phone, email))
  {
  }

  // ---------------------------------------------------------------------------
  // Properties of the patterns
  // ---------------------------------------------------------------------------

  /** An accepted phone number is 13 to 16 characters long and holds no whitespace or control character. */
  lemma ValidPhoneShape(phone: string)
    requires IsValidPhone(phone)
    ensures 13 <= |Trim(phone)| <= 16
    ensures forall i :: 0 <= i < |Trim(phone)| ==> !IsTrimmable(Trim(phone)[i])
  {
    var s := Trim(phone);
    forall i | 0 <= i < |s|
      ensures !IsTrimmable(s[i])
    {
      if i >= 2 {
        assert s[2..][i - 2] == s[i];
      }
    }
  }

  /** The number of occurrences of `c` in `s`. */
  function CountChar(s: string, c: char): (n: nat)
    ensures n <= |s|
  {
    if s == [] then 0 else (if s[0] == c then 1 else 0) + CountChar(s[1..], c)
  }

  lemma {:induction false} CountCharAppend(a: string, b: string, c: char)
    ensures CountChar(a + b, c) == CountChar(a, c) + CountChar(b, c)
  {
    if a != [] {
      assert (a + b)[1..] == a[1..] + b;
      CountCharAppend(a[1..], b, c);
    } else {
      assert a + b == b;
    }
  }

  lemma {:induction false} CountCharAbsent(s: string, c: char)
    requires forall i :: 0 <= i < |s| ==> s[i] != c
    ensures CountChar(s, c) == 0
  {
    if s != [] {
      CountCharAbsent(s[1..], c);
    }
  }

  /** An accepted email address holds exactly one `@`. */
  lemma ValidEmailHasOneAt(email: string)
    requires IsValidEmail(email)
    ensures CountChar(Trim(email), '@') == 1
  {
    var s := Trim(email);
    var at, dot :| 0 <= at < |s| && at < dot < |s| && EmailSplitAt(s, at, dot);
    var local, rest := s[..at], s[at + 1..];
    assert s == local + [s[at]] + rest;
    CountCharAbsent(local, '@');
    assert forall i :: 0 <= i < |rest| ==> rest[i] != '@' by {
      forall i | 0 <= i < |rest|
        ensures rest[i] != '@'
      {
        var j := at + 1 + i;
        assert rest[i] == s[j];
        if j < dot {
          assert s[at + 1..dot][i] == s[j];
        } else if j > dot {
          assert s[dot + 1..][j - (dot + 1)] == s[j];
        }
      }
    }
    CountCharAbsent(rest, '@');
    CountCharAppend(local + [s[at]], rest, '@');
    CountCharAppend(local, [s[at]], '@');
  }

  /** An address of the form L `@` D `.` T with the required character classes is accepted. */
  lemma EmailAccepts(local: string, domain: string, tld: string)
    requires |local| > 0 && AllOf(local, IsLocalChar)
    requires |domain| > 0 && AllOf(domain, IsDomainChar)
    requires |tld| >= 2 && AllOf(tld, IsLetter)
    ensures EmailMatches(local + "@" + domain + "." + tld)
  {
    var s := local + "@" + domain + "." + tld;
    var at, dot := |local|, |local| + 1 + |domain|;
    assert s[..at] == local;
    assert s[at + 1..dot] == domain;
    assert s[dot + 1..] == tld;
    assert EmailSplitAt(s, at, dot);
  }

  /**
   * A phone number the untrimmed pattern accepts is also accepted once
   * trimmed; the converse fails for padded input.
   */
  lemma UntrimmedPhoneImpliesValid(s: string)
    requires PhoneMatches(s)
    ensures IsValidPhone(s)
  {
    assert s[2..][|s| - 3] == s[|s| - 1];
    TrimOfUnpadded(s);
  }

  /** An accepted email address contains no padding either. */
  lemma UntrimmedEmailImpliesValid(s: string)
    requires EmailMatches(s)
    ensures IsValidEmail(s)
  {
    var at, dot :| 0 <= at < |s| && at < dot < |s| && EmailSplitAt(s, at, dot);
    assert s[..at][0] == s[0];
    assert s[dot + 1..][|s| - 1 - (dot + 1)] == s[|s| - 1];
    TrimOfUnpadded(s);
  }

  /** A padded phone number passes the trimmed check but not the untrimmed one. */
  lemma PaddedPhone()
    ensures IsValidPhone(" +155512345678") && !PhoneMatches(" +155512345678")
  {
    var s := " +155512345678";
    TrimIgnoresPadding(" ", "+155512345678", "");
    assert s == " " + "+155512345678" + "";
    TrimOfUnpadded("+155512345678");
  }
}

=== FILE: date_service.dfy ===
/**
 * The dashboard's date menu: the period choice for recently modified
 * contacts, the bounds of a creation-date range, and the age analysis over
 * every stored contact. Times are whole seconds on one clock; "now" is a
 * parameter.
 */
module DateService {
  import opened JavaLang
  import opened ContactModel

  // ---------------------------------------------------------------------------
  // Recently modified: the period choice
  // ---------------------------------------------------------------------------

  /** The `switch` on the chosen period; an unexpected text falls back to a week. */
  function DaysForOption(selected: string): (days: int)
    ensures selected == "Last 7 days" ==> days == 7
    ensures selected == "Last 30 days" ==> days == 30
    ensures selected == "Last 90 days" ==> days == 90
    ensures selected !in ["Last 7 days", "Last 30 days", "Last 90 days"] ==> days == 7
  {
    match selected
    case "Last 7 days" => 7
    case "Last 30 days" => 30
    case "Last 90 days" => 90
    case _ => 7
  }

  // ---------------------------------------------------------------------------
  // Contacts by date range
  // ---------------------------------------------------------------------------

  /** The day a time falls on, counting days from the clock's origin. */
  function DayOf(t: Timestamp): int {
    t / SecondsPerDay
  }

  /**
   * The range the query uses for the days typed as start and end (each parsed
   * text, `None` when it is not a date): from the start day at 00:00:00 to
   * the end day at 23:59:59. A text that does not parse is an error.
   */
  function DateRange(startDay: Option<int>, endDay: Option<int>): (range: Option<(Timestamp, Timestamp)>)
    ensures range.None? <==> startDay.None? || endDay.None?
  {
    if startDay.None? || endDay.None? then None
    else Some((startDay.value * SecondsPerDay, endDay.value * SecondsPerDay + (SecondsPerDay - 1)))
  }

  /**
   * A time lies within the range exactly when its day lies between the start
   * and end days. This holds at the whole-second precision of `Timestamp`: a
   * time in the fraction of a second after 23:59:59 on the end day, which
   * `LocalDateTime` can hold, falls outside the range.
   */
  lemma DateRangeCoversWholeDays(startDay: int, endDay: int, t: Timestamp)
    ensures var (lo, hi) := DateRange(Some(startDay), Some(endDay)).value;
      lo <= t <= hi <==> startDay <= DayOf(t) <= endDay
  {
    var d := DayOf(t);
    assert d * SecondsPerDay <= t < (d + 1) * SecondsPerDay;
    if startDay <= d {
      assert startDay * SecondsPerDay <= d * SecondsPerDay;
    }
    if d <= endDay {
      assert d * SecondsPerDay <= endDay * SecondsPerDay;
    }
    if startDay > d {
      assert startDay * SecondsPerDay >= (d + 1) * SecondsPerDay;
    }
    if d > endDay {
      assert (endDay + 1) * SecondsPerDay <= d * SecondsPerDay;
    }
  }

  // ---------------------------------------------------------------------------
  // Age analysis
  // ---------------------------------------------------------------------------

  /** Every contact's age in days, in list order. */
  function Ages(contacts: seq<Contact>, now: Timestamp): (ages: seq<int>)
    ensures |ages| == |contacts|
    ensures forall i :: 0 <= i < |contacts| ==> ages[i] == AgeInDays(contacts[i].createdAt, now)
  {
    seq(|contacts|, i requires 0 <= i < |contacts| => AgeInDays(contacts[i].createdAt, now))
  }

  function Sum(xs: seq<int>): int {
    if xs == [] then 0 else Sum(xs[..|xs| - 1]) + xs[|xs| - 1]
  }

  /** `Long.MAX_VALUE`, where the newest age starts. */
  const LongMax: int := 0x7fff_ffff_ffff_ffff

  /** The largest of the values and 0: the oldest age starts at 0. */
  function MaxFromZero(xs: seq<int>): (m: int)
    ensures m >= 0 && forall i :: 0 <= i < |xs| ==> xs[i] <= m
    ensures m == 0 || exists i :: 0 <= i < |xs| && xs[i] == m
  {
    if xs == [] then 0
    else
      var m := MaxFromZero(xs[..|xs| - 1]);
      assert forall i :: 0 <= i < |xs| - 1 ==> xs[..|xs| - 1][i] == xs[i];
      if xs[|xs| - 1] > m then xs[|xs| - 1] else m
  }

  /** The smallest of the values and `Long.MAX_VALUE`: the newest age starts there. */
  function MinFromLongMax(xs: seq<int>): (m: int)
    ensures m <= LongMax && forall i :: 0 <= i < |xs| ==> m <= xs[i]
    ensures m == LongMax || exists i :: 0 <= i < |xs| && xs[i] == m
  {
    if xs == [] then LongMax
    else
      var m := MinFromLongMax(xs[..|xs| - 1]);
      assert forall i :: 0 <= i < |xs| - 1 ==> xs[..|xs| - 1][i] == xs[i];
      if xs[|xs| - 1] < m then xs[|xs| - 1] else m
  }

  /** How many values are below `bound`. */
  function CountBelow(xs: seq<int>, bound: int): (n: nat)
    ensures n <= |xs|
  {
    if xs == [] then 0 else CountBelow(xs[..|xs| - 1], bound) + if xs[|xs| - 1] < bound then 1 else 0
  }

  /** How many values are above `bound`. */
  function CountAbove(xs: seq<int>, bound: int): (n: nat)
    ensures n <= |xs|
  {
    if xs == [] then 0 else CountAbove(xs[..|xs| - 1], bound) + if xs[|xs| - 1] > bound then 1 else 0
  }

  /** The figures the analysis reports besides the average. */
  datatype AgeStats = AgeStats(totalAge: int, oldestAge: int, newestAge: int, recentContacts: nat, oldContacts: nat)

  const RecentDays: int := 30
  const OldDays: int := 365

  /** The figures for a non-empty list of ages. */
  function Analysis(ages: seq<int>): AgeStats
    requires ages != []
  {
    AgeStats(Sum(ages), MaxFromZero(ages), MinFromLongMax(ages), CountBelow(ages, RecentDays), CountAbove(ages, OldDays))
  }

  /** How each figure changes when one more age is taken in. */
  lemma AnalysisStep(ages: seq<int>, i: nat)
    requires i < |ages|
    ensures var seen, age := ages[..i + 1], ages[i];
      Sum(seen) == Sum(ages[..i]) + age
      && MaxFromZero(seen) == (if age > MaxFromZero(ages[..i]) then age else MaxFromZero(ages[..i]))
      && MinFromLongMax(seen) == (if age < MinFromLongMax(ages[..i]) then age else MinFromLongMax(ages[..i]))
      && CountBelow(seen, RecentDays) == CountBelow(ages[..i], RecentDays) + (if age < RecentDays then 1 else 0)
      && CountAbove(seen, OldDays) == CountAbove(ages[..i], OldDays) + (if age > OldDays then 1 else 0)
  {
    var seen := ages[..i + 1];
    assert seen[..i] == ages[..i] && seen[i] == ages[i];
  }

  /**
   * `showContactAgeAnalysis`: nothing for an empty list; otherwise one pass
   * that sums the ages, keeps the largest (from 0) and the smallest (from
   * `Long.MAX_VALUE`), and counts the recent and the old contacts.
   */
  method AnalyzeAges(contacts: seq<Contact>, now: Timestamp) returns (stats: Option<AgeStats>)
    ensures contacts == [] ==> stats.None?
    ensures contacts != [] ==> stats == Some(Analysis(Ages(contacts, now)))
  {
    if contacts == [] {
      return None;
    }
    ghost var ages := Ages(contacts, now);
    var totalAge, oldestAge, newestAge := 0, 0, LongMax;
    var recentContacts: nat, oldContacts: nat := 0, 0;
    for i := 0 to |contacts|
      invariant totalAge == Sum(ages[..i]) && oldestAge == MaxFromZero(ages[..i])
      invariant newestAge == MinFromLongMax(ages[..i])
      invariant recentContacts == CountBelow(ages[..i], RecentDays) && oldContacts == CountAbove(ages[..i], OldDays)
    {
      var age := AgeInDays(contacts[i].createdAt, now);
      AnalysisStep(ages, i);
      totalAge := totalAge + age;
      if age > oldestAge {
        oldestAge := age;
      }
      if age < newestAge {
        newestAge := age;
      }
      if age < RecentDays {
        recentContacts := recentContacts + 1;
      }
      if age > OldDays {
        oldContacts := oldContacts + 1;
      }
    }
    assert ages[..|contacts|] == ages;
    stats := Some(AgeStats(totalAge, oldestAge, newestAge, recentContacts, oldContacts));
  }

  /** The newest age is never above the oldest, and the oldest is never negative. */
  lemma NewestNotAfterOldest(ages: seq<int>)
    requires ages != []
    ensures 0 <= Analysis(ages).oldestAge && Analysis(ages).newestAge <= Analysis(ages).oldestAge
  {
    assert MinFromLongMax(ages) <= ages[0] <= MaxFromZero(ages);
  }

  /** No age is both recent and old, so the two counts together never exceed the list. */
  lemma {:induction false} RecentAndOldAreDisjoint(ages: seq<int>)
    ensures CountBelow(ages, RecentDays) + CountAbove(ages, OldDays) <= |ages|
  {
    if ages != [] {
      RecentAndOldAreDisjoint(ages[..|ages| - 1]);
    }
  }

  /** Values between two bounds sum to between the bounds times their number. */
  lemma {:induction false} SumBetween(xs: seq<int>, lo: int, hi: int)
    requires forall i :: 0 <= i < |xs| ==> lo <= xs[i] <= hi
    ensures |xs| * lo <= Sum(xs) <= |xs| * hi
  {
    if xs != [] {
      var init := xs[..|xs| - 1];
      assert forall i :: 0 <= i < |init| ==> init[i] == xs[i];
      SumBetween(init, lo, hi);
      assert |xs| * lo == |init| * lo + lo && |xs| * hi == |init| * hi + hi;
    }
  }

  /** The average age the dialog shows lies between the newest and the oldest age. */
  lemma AverageBetweenNewestAndOldest(ages: seq<int>)
    requires ages != []
    ensures |ages| * Analysis(ages).newestAge <= Analysis(ages).totalAge <= |ages| * Analysis(ages).oldestAge
  {
    SumBetween(ages, MinFromLongMax(ages), MaxFromZero(ages));
  }
}

=== FILE: edit_service.dfy ===
/**
 * The dashboard's edit menu. Undo and redo only move entry labels between
 * two stacks; cut, paste and delete record a label on the undo stack; cut and
 * copy put the selected text on the clipboard. The focused component is an
 * input: `None` when it is not a text field, otherwise the field's selected
 * text (`None` when nothing is selected).
 */
module EditService {
  import opened JavaLang

  /** The two stacks as a value; the last element of each sequence is its top. */
  datatype History = History(undo: seq<string>, redo: seq<string>)

  /** `undoAction` on the stacks: the undo stack's top moves onto the redo stack; nothing happens when it is empty. */
  function UndoStep(h: History): (next: History)
    ensures |next.undo| + |next.redo| == |h.undo| + |h.redo|
    ensures h.undo == [] ==> next == h
    ensures h.undo != [] ==> next.undo == h.undo[..|h.undo| - 1] && next.redo[..|h.redo|] == h.redo
                             && next.redo[|h.redo|] == h.undo[|h.undo| - 1]
  {
    if h.undo == [] then h
    else History(h.undo[..|h.undo| - 1], h.redo + [h.undo[|h.undo| - 1]])
  }

  /** `redoAction` on the stacks: the redo stack's top moves back onto the undo stack. */
  function RedoStep(h: History): (next: History)
    ensures |next.undo| + |next.redo| == |h.undo| + |h.redo|
    ensures h.redo == [] ==> next == h
    ensures h.redo != [] ==> next.redo == h.redo[..|h.redo| - 1] && next.undo[..|h.undo|] == h.undo
                             && next.undo[|h.undo|] == h.redo[|h.redo| - 1]
  {
    if h.redo == [] then h
    else History(h.undo + [h.redo[|h.redo| - 1]], h.redo[..|h.redo| - 1])
  }

  /** Undo followed by redo restores both stacks. */
  lemma RedoUndoesUndo(h: History)
    requires h.undo != []
    ensures RedoStep(UndoStep(h)) == h
  {
    assert h.undo[..|h.undo| - 1] + [h.undo[|h.undo| - 1]] == h.undo;
  }

  /** Redo followed by undo restores both stacks. */
  lemma UndoUndoesRedo(h: History)
    requires h.redo != []
    ensures UndoStep(RedoStep(h)) == h
  {
    assert h.redo[..|h.redo| - 1] + [h.redo[|h.redo| - 1]] == h.redo;
  }

  /** A run of undos (true) and redos (false). */
  function Replay(h: History, steps: seq<bool>): History
    decreases |steps|
  {
    if steps == [] then h
    else Replay(if steps[0] then UndoStep(h) else RedoStep(h), steps[1..])
  }

  /** Any run of undos and redos keeps the total number of entries. */
  lemma {:induction false} ReplayKeepsEntries(h: History, steps: seq<bool>)
    ensures |Replay(h, steps).undo| + |Replay(h, steps).redo| == |h.undo| + |h.redo|
    decreases |steps|
  {
    if steps != [] {
      ReplayKeepsEntries(if steps[0] then UndoStep(h) else RedoStep(h), steps[1..]);
    }
  }

  /** How an edit action ended. */
  datatype EditOutcome = Done | NothingToDo | NotATextField

  /** A selection or clipboard text the actions accept: present and not empty. */
  predicate Usable(text: Option<string>) {
    text.Some? && text.value != []
  }

  class EditService {
    var undoStack: seq<string>
    var redoStack: seq<string>
    /** The system clipboard's text, `None` when it holds no text. */
    var clipboard: Option<string>

    constructor(clipboard: Option<string>)
      ensures undoStack == [] && redoStack == [] && this.clipboard == clipboard
    {
      undoStack, redoStack := [], [];
      this.clipboard := clipboard;
    }

    function Stacks(): History
      reads this
    {
      History(undoStack, redoStack)
    }

    /** `undoAction` */
    method Undo() returns (outcome: EditOutcome)
      modifies this`undoStack, this`redoStack
      ensures Stacks() == UndoStep(old(Stacks()))
      ensures outcome == NothingToDo <==> old(undoStack) == []
    {
      if undoStack == [] {
        return NothingToDo;
      }
      var action := undoStack[|undoStack| - 1];
      undoStack := undoStack[..|undoStack| - 1];
      redoStack := redoStack + [action];
      return Done;
    }

    /** `redoAction` */
    method Redo() returns (outcome: EditOutcome)
      modifies this`undoStack, this`redoStack
      ensures Stacks() == RedoStep(old(Stacks()))
      ensures outcome == NothingToDo <==> old(redoStack) == []
    {
      if redoStack == [] {
        return NothingToDo;
      }
      var action := redoStack[|redoStack| - 1];
      redoStack := redoStack[..|redoStack| - 1];
      undoStack := undoStack + [action];
      return Done;
    }

    /** `cutAction`: a non-empty selection goes to the clipboard and "Cut: " and the text onto the undo stack. */
    method Cut(focused: Option<Option<string>>) returns (outcome: EditOutcome)
      modifies this`undoStack, this`clipboard
      ensures focused.None? ==> outcome == NotATextField
      ensures outcome == Done <==> focused.Some? && Usable(focused.value)
      ensures outcome == Done ==> undoStack == old(undoStack) + ["Cut: " + focused.value.value]
                                  && clipboard == focused.value
      ensures outcome != Done ==> undoStack == old(undoStack) && clipboard == old(clipboard)
    {
      if focused.None? {
        return NotATextField;
      }
      var selectedText := focused.value;
      if !Usable(selectedText) {
        return NothingToDo;
      }
      clipboard := selectedText;
      undoStack := undoStack + ["Cut: " + selectedText.value];
      return Done;
    }

    /** `copyAction`: a non-empty selection goes to the clipboard; the stacks are not touched. */
    method Copy(focused: Option<Option<string>>) returns (outcome: EditOutcome)
      modifies this`clipboard
      ensures outcome == Done <==> focused.Some? && Usable(focused.value)
      ensures clipboard == if outcome == Done then focused.value else old(clipboard)
    {
      if focused.None? {
        return NotATextField;
      }
      if !Usable(focused.value) {
        return NothingToDo;
      }
      clipboard := focused.value;
      return Done;
    }

    /** `pasteAction`: when the clipboard holds non-empty text, "Paste: " and the text go onto the undo stack. */
    method Paste(focusedIsTextField: bool) returns (outcome: EditOutcome)
      modifies this`undoStack
      ensures outcome == Done <==> focusedIsTextField && Usable(clipboard)
      ensures undoStack == if outcome == Done then old(undoStack) + ["Paste: " + clipboard.value] else old(undoStack)
    {
      if !focusedIsTextField {
        return NotATextField;
      }
      var clipboardText := clipboard;
      if !Usable(clipboardText) {
        return NothingToDo;
      }
      undoStack := undoStack + ["Paste: " + clipboardText.value];
      return Done;
    }

    /** `deleteAction`: a non-empty selection puts "Delete: " and the text onto the undo stack. */
    method Delete(focused: Option<Option<string>>) returns (outcome: EditOutcome)
      modifies this`undoStack
      ensures outcome == Done <==> focused.Some? && Usable(focused.value)
      ensures undoStack == if outcome == Done then old(undoStack) + ["Delete: " + focused.value.value] else old(undoStack)
    {
      if focused.None? {
        return NotATextField;
      }
      if !Usable(focused.value) {
        return NothingToDo;
      }
      undoStack := undoStack + ["Delete: " + focused.value.value];
      return Done;
    }

    /** `selectAllAction`: changes neither the stacks nor the clipboard. */
    method SelectAll(focusedIsTextField: bool) returns (outcome: EditOutcome)
      ensures outcome == Done <==> focusedIsTextField
    {
      outcome := if focusedIsTextField then Done else NotATextField;
    }
  }
}

=== FILE: file_service.dfy ===
/**
 * The dashboard's file menu: CSV import and export. A file is a sequence of
 * lines; the store's list is a parameter, and the positions of the data
 * lines whose store insert throws are an input, since the store is not part
 * of this model.
 */
module FileService {
  import opened JavaLang
  import opened ContactModel

  /**
   * A record as the import sees it: the email is absent when the line had
   * only four fields.
   */
  datatype ImportedContact = ImportedContact(firstName: string, lastName: string, location: string, phone: string,
                                             email: Option<string>)

  /** A stored contact in the import's terms; the store always holds an email. */
  function FromStore(c: Contact): (r: ImportedContact)
    ensures r.email.Some?
  {
    ImportedContact(c.fields.firstName, c.fields.lastName, c.fields.location, c.fields.phone, Some(c.fields.email))
  }

  // ---------------------------------------------------------------------------
  // Parsing a line
  // ---------------------------------------------------------------------------

  /** The first line is a header when its lower-cased text contains "firstname". */
  predicate IsHeader(line: string) {
    Contains(Lower(line), "firstname")
  }

  /** The lines the import loop reads: all of them, or all but a leading header. */
  function DataLines(lines: seq<string>): (data: seq<string>)
    ensures |lines| - 1 <= |data| <= |lines| && data == lines[|lines| - |data|..]
    ensures |data| < |lines| <==> lines != [] && IsHeader(lines[0])
  {
    if lines != [] && IsHeader(lines[0]) then lines[1..] else lines
  }

  predicate Trimmed(s: string) {
    Trim(s) == s
  }

  /**
   * One line: split at commas (trailing empty fields dropped); fewer than
   * four fields is no record; otherwise the fields are trimmed and the fifth,
   * when present, is the email.
   */
  function ParseLine(line: string): Option<ImportedContact> {
    var parts := JavaSplit(line, ',');
    if |parts| < 4 then None
    else
      var email := if |parts| > 4 then Some(Trim(parts[4])) else None;
      Some(ImportedContact(Trim(parts[0]), Trim(parts[1]), Trim(parts[2]), Trim(parts[3]), email))
  }

  /**
   * A line is a record exactly when it has at least four fields; the
   * record's fields carry no padding, and it has an email exactly when the
   * line has a fifth field.
   */
  lemma ParseLineShape(line: string)
    ensures var r := ParseLine(line);
      (r.Some? <==> |JavaSplit(line, ',')| >= 4)
      && (r.Some? ==> Trimmed(r.value.firstName) && Trimmed(r.value.lastName) && Trimmed(r.value.location)
                      && Trimmed(r.value.phone))
      && (r.Some? ==> (r.value.email.Some? <==> |JavaSplit(line, ',')| > 4))
      && (r.Some? && r.value.email.Some? ==> Trimmed(r.value.email.value))
  {
    var parts := JavaSplit(line, ',');
    if |parts| >= 4 {
      TrimIdempotent(parts[0]);
      TrimIdempotent(parts[1]);
      TrimIdempotent(parts[2]);
      TrimIdempotent(parts[3]);
      if |parts| > 4 {
        TrimIdempotent(parts[4]);
      }
    }
  }

  // ---------------------------------------------------------------------------
  // The duplicate check
  // ---------------------------------------------------------------------------

  /** First and last names agree ignoring case. */
  predicate NamesMatch(existing: ImportedContact, c: ImportedContact) {
    EqualsIgnoreCase(existing.firstName, Some(c.firstName)) && EqualsIgnoreCase(existing.lastName, Some(c.lastName))
  }

  /** The record counts as already present: names and email agree ignoring case. */
  predicate SameImportKey(existing: ImportedContact, c: ImportedContact) {
    NamesMatch(existing, c) && existing.email.Some? && EqualsIgnoreCase(existing.email.value, c.email)
  }

  /** A record whose names match but whose email is absent: comparing the email with it throws. */
  predicate ThrowsOn(existing: ImportedContact, c: ImportedContact) {
    NamesMatch(existing, c) && existing.email.None?
  }

  /** The outcome of the `anyMatch` scan. */
  datatype Match = Found | Absent | Throws

  /**
   * `anyMatch` over the list, in order: it stops at the first record with the
   * same key, and throws at the first record before that whose names match
   * but whose email is absent.
   */
  function FindExisting(existing: seq<ImportedContact>, c: ImportedContact): Match {
    if existing == [] then Absent
    else if ThrowsOn(existing[0], c) then Throws
    else if SameImportKey(existing[0], c) then Found
    else FindExisting(existing[1..], c)
  }

  /**
   * The scan finds a record with the same key, throws on a record with the
   * same names and no email, or, exactly when neither kind of record exists,
   * finds nothing.
   */
  lemma {:induction false} FindExistingSpec(existing: seq<ImportedContact>, c: ImportedContact)
    ensures FindExisting(existing, c) == Found ==> exists k :: 0 <= k < |existing| && SameImportKey(existing[k], c)
    ensures FindExisting(existing, c) == Throws ==> exists k :: 0 <= k < |existing| && ThrowsOn(existing[k], c)
    ensures FindExisting(existing, c) == Absent <==>
      forall k :: 0 <= k < |existing| ==> !SameImportKey(existing[k], c) && !ThrowsOn(existing[k], c)
  {
    if existing != [] {
      FindExistingSpec(existing[1..], c);
      assert forall k :: 0 < k < |existing| ==> existing[k] == existing[1..][k - 1];
      if FindExisting(existing, c) == Found && !SameImportKey(existing[0], c) {
        var k :| 0 <= k < |existing[1..]| && SameImportKey(existing[1..][k], c);
        assert existing[k + 1] == existing[1..][k];
      }
      if FindExisting(existing, c) == Throws && !ThrowsOn(existing[0], c) {
        var k :| 0 <= k < |existing[1..]| && ThrowsOn(existing[1..][k], c);
        assert existing[k + 1] == existing[1..][k];
      }
    }
  }

  /** When every record holds an email the scan never throws, and it finds exactly the records with the same key. */
  lemma FindExistingWithEmails(existing: seq<ImportedContact>, c: ImportedContact)
    requires forall k :: 0 <= k < |existing| ==> existing[k].email.Some?
    ensures FindExisting(existing, c) != Throws
    ensures FindExisting(existing, c) == Found <==> exists k :: 0 <= k < |existing| && SameImportKey(existing[k], c)
  {
    FindExistingSpec(existing, c);
  }

  /** Appending a record behind a list the scan passes over is the same as scanning that record alone. */
  lemma {:induction false} FindExistingAppend(existing: seq<ImportedContact>, e: ImportedContact, c: ImportedContact)
    requires FindExisting(existing, c) == Absent
    ensures FindExisting(existing + [e], c) == FindExisting([e], c)
  {
    if existing != [] {
      assert (existing + [e])[1..] == existing[1..] + [e];
      FindExistingAppend(existing[1..], e, c);
    }
  }

  // ---------------------------------------------------------------------------
  // The import loop
  // ---------------------------------------------------------------------------

  /**
   * The loop's variables: the list checked for duplicates, the three
   * counters, the records stored so far, and whether an exception ended the
   * import.
   */
  datatype ImportState = ImportState(existing: seq<ImportedContact>, imported: nat, skipped: nat, errors: nat,
                                     added: seq<ImportedContact>, aborted: bool)

  /** Before the first line: the store's list and zero counts. */
  function Start(contacts: seq<Contact>): (st: ImportState)
    ensures |st.existing| == |contacts| && st.added == [] && !st.aborted
    ensures forall k :: 0 <= k < |contacts| ==> st.existing[k] == FromStore(contacts[k])
  {
    ImportState(seq(|contacts|, k requires 0 <= k < |contacts| => FromStore(contacts[k])), 0, 0, 0, [], false)
  }

  /**
   * One data line: ignored when it has fewer than four fields; otherwise
   * skipped as a duplicate, stored (and remembered for later lines), counted
   * as an error when the store throws, or, when the duplicate scan throws,
   * the end of the import. Nothing happens after the end.
   */
  function ImportLine(st: ImportState, line: string, addFails: bool): ImportState {
    if st.aborted then st
    else match ParseLine(line)
      case None => st
      case Some(c) =>
        match FindExisting(st.existing, c)
        case Throws => st.(aborted := true)
        case Found => st.(skipped := st.skipped + 1)
        case Absent =>
          if addFails then st.(errors := st.errors + 1)
          else st.(existing := st.existing + [c], imported := st.imported + 1, added := st.added + [c])
  }

  /** The state after the first `n` data lines. */
  function ImportPrefix(contacts: seq<Contact>, data: seq<string>, failing: set<nat>, n: nat): ImportState
    requires n <= |data|
  {
    if n == 0 then Start(contacts)
    else ImportLine(ImportPrefix(contacts, data, failing, n - 1), data[n - 1], n - 1 in failing)
  }

  /** How many of the lines have at least four fields. */
  function CountParsed(lines: seq<string>): (n: nat)
    ensures n <= |lines|
  {
    if lines == [] then 0
    else CountParsed(lines[..|lines| - 1]) + if ParseLine(lines[|lines| - 1]).Some? then 1 else 0
  }

  /**
   * The loop's invariant: the duplicate list is the store's list followed by
   * the records stored, `imported` counts those, and until an exception each
   * line with four or more fields is counted exactly once as imported,
   * skipped or error.
   */
  lemma {:induction false} ImportCounts(contacts: seq<Contact>, data: seq<string>, failing: set<nat>, n: nat)
    requires n <= |data|
    ensures var st := ImportPrefix(contacts, data, failing, n);
      st.existing == Start(contacts).existing + st.added && st.imported == |st.added|
      && (!st.aborted ==> st.imported + st.skipped + st.errors == CountParsed(data[..n]))
  {
    if n > 0 {
      ImportCounts(contacts, data, failing, n - 1);
      var prev := ImportPrefix(contacts, data, failing, n - 1);
      var line := data[n - 1];
      assert ImportPrefix(contacts, data, failing, n) == ImportLine(prev, line, n - 1 in failing);
      assert data[..n][..n - 1] == data[..n - 1] && data[..n][n - 1] == line;
      assert CountParsed(data[..n]) == CountParsed(data[..n - 1]) + if ParseLine(line).Some? then 1 else 0;
    }
  }

  /** Once the import has ended, the remaining lines change nothing. */
  lemma {:induction false} AbortedIsFinal(contacts: seq<Contact>, data: seq<string>, failing: set<nat>, i: nat, n: nat)
    requires i <= n <= |data| && ImportPrefix(contacts, data, failing, i).aborted
    ensures ImportPrefix(contacts, data, failing, n) == ImportPrefix(contacts, data, failing, i)
    decreases n
  {
    if n > i {
      AbortedIsFinal(contacts, data, failing, i, n - 1);
    }
  }

  /** The state after every data line of a file. */
  function ImportFile(contacts: seq<Contact>, lines: seq<string>, failing: set<nat>): ImportState {
    ImportPrefix(contacts, DataLines(lines), failing, |DataLines(lines)|)
  }

  /**
   * Unless an exception ends the import, every data line with four or more
   * fields is counted exactly once, and the records stored are those counted
   * as imported.
   */
  lemma ImportFileCounts(contacts: seq<Contact>, lines: seq<string>, failing: set<nat>)
    ensures var st := ImportFile(contacts, lines, failing);
      st.imported == |st.added| && st.existing == Start(contacts).existing + st.added
      && (!st.aborted ==> st.imported + st.skipped + st.errors == CountParsed(DataLines(lines)))
  {
    var data := DataLines(lines);
    ImportCounts(contacts, data, failing, |data|);
    assert data[..|data|] == data;
  }

  /** What the import dialog reports. */
  datatype ImportOutcome = Summary(imported: int, skipped: int, errors: int) | ImportError

  /**
   * `importFromFile`: returns the summary, or the error an exception in the
   * duplicate scan raises, together with the records stored, which stay
   * stored even when the import ends in an error.
   */
  method ImportFromFile(contacts: seq<Contact>, lines: seq<string>, failing: set<nat>)
    returns (outcome: ImportOutcome, added: seq<ImportedContact>)
    ensures added == ImportFile(contacts, lines, failing).added
    ensures outcome.ImportError? <==> ImportFile(contacts, lines, failing).aborted
    ensures outcome.Summary? ==> outcome == Summary(ImportFile(contacts, lines, failing).imported,
      ImportFile(contacts, lines, failing).skipped, ImportFile(contacts, lines, failing).errors)
  {
    var existing := Start(contacts).existing;
    var importedCount: nat, skippedCount: nat, errorCount: nat := 0, 0, 0;
    added := [];
    var data := if lines != [] && IsHeader(lines[0]) then lines[1..] else lines;
    var i := 0;
    assert ImportPrefix(contacts, data, failing, 0) == ImportState(existing, 0, 0, 0, [], false);
    while i < |data|
      invariant i <= |data|
      invariant ImportPrefix(contacts, data, failing, i)
             == ImportState(existing, importedCount, skippedCount, errorCount, added, false)
    {
      assert ImportPrefix(contacts, data, failing, i + 1)
          == ImportLine(ImportPrefix(contacts, data, failing, i), data[i], i in failing);
      var parsed := ParseLine(data[i]);
      if parsed.Some? {
        var c := parsed.value;
        var m := FindExisting(existing, c);
        if m == Throws {
          AbortedIsFinal(contacts, data, failing, i + 1, |data|);
          return ImportError, added;
        }
        if m == Found {
          skippedCount := skippedCount + 1;
        } else if i in failing {
          errorCount := errorCount + 1;
        } else {
          importedCount := importedCount + 1;
          existing := existing + [c];
          added := added + [c];
        }
      }
      i := i + 1;
    }
    outcome := Summary(importedCount, skippedCount, errorCount);
  }

  /**
   * A line with an email that has just been stored is a duplicate of itself:
   * the same line again is skipped.
   */
  lemma RepeatedLineIsSkipped(st: ImportState, line: string, addFails: bool)
    requires !st.aborted && ParseLine(line).Some? && ParseLine(line).value.email.Some?
    requires FindExisting(st.existing, ParseLine(line).value) == Absent && !addFails
    ensures var next := ImportLine(st, line, addFails);
      next.imported == st.imported + 1
      && ImportLine(next, line, addFails) == next.(skipped := next.skipped + 1)
  {
    var c := ParseLine(line).value;
    FindExistingAppend(st.existing, c, c);
  }

  /**
   * A four-field line that has just been stored has no email, so when the same
   * names come again the email comparison throws and the import ends.
   */
  lemma RepeatedLineWithoutEmailEndsImport(st: ImportState, line: string, later: string, addFails: bool)
    requires !st.aborted && ParseLine(line).Some? && ParseLine(line).value.email.None?
    requires FindExisting(st.existing, ParseLine(line).value) == Absent && !addFails
    requires ParseLine(later).Some?
    requires NamesMatch(ParseLine(line).value, ParseLine(later).value)
    requires FindExisting(st.existing, ParseLine(later).value) == Absent
    ensures ImportLine(ImportLine(st, line, addFails), later, addFails).aborted
  {
    var c := ParseLine(line).value;
    FindExistingAppend(st.existing, c, ParseLine(later).value);
  }

  /**
   * The same four-field line twice in a file imported into an empty store:
   * the first copy is stored without an email and the second ends the import.
   */
  lemma FourFieldDuplicateEndsImport(a: string, b: string, c: string, d: string)
    requires Portable(a) && Portable(b) && Portable(c) && Portable(d) && d != []
    ensures var line := a + "," + b + "," + c + "," + d;
      ParseLine(line) == Some(ImportedContact(a, b, c, d, None))
      && ImportPrefix([], [line, line], {}, 1).added == [ImportedContact(a, b, c, d, None)]
      && ImportPrefix([], [line, line], {}, 2).aborted
  {
    var line := a + "," + b + "," + c + "," + d;
    SplitFour(a, b, c, d);
    RepeatedLineWithoutEmailEndsImport(Start([]), line, line, false);
  }

  // ---------------------------------------------------------------------------
  // Export
  // ---------------------------------------------------------------------------

  const ExportHeader: string := "FirstName,LastName,Location,Phone,Email"

  /** One contact as written: the five fields joined by commas, with no quoting or escaping. */
  function ExportLine(c: Contact): string {
    c.fields.firstName + "," + c.fields.lastName + "," + c.fields.location + "," + c.fields.phone + ","
    + c.fields.email
  }

  /** `exportToFile`: the header, then one line per contact in list order. */
  method ExportToFile(contacts: seq<Contact>) returns (lines: seq<string>)
    ensures |lines| == |contacts| + 1 && lines[0] == ExportHeader
    ensures forall i :: 0 <= i < |contacts| ==> lines[i + 1] == ExportLine(contacts[i])
  {
    lines := [ExportHeader];
    for i := 0 to |contacts|
      invariant |lines| == i + 1 && lines[0] == ExportHeader
      invariant forall k :: 0 <= k < i ==> lines[k + 1] == ExportLine(contacts[k])
    {
      lines := lines + [ExportLine(contacts[i])];
    }
  }

  /** The header export writes is the header import skips. */
  lemma ExportHeaderIsRecognised()
    ensures IsHeader(ExportHeader)
  {
    var w := ExportHeader[..9];
    assert w == "FirstName";
    var lw := Lower(w);
    assert lw == "firstname" by {
      assert |lw| == 9;
      assert lw[0] == LowerChar('F') == 'f' && lw[5] == LowerChar('N') == 'n';
      assert lw[1] == 'i' && lw[2] == 'r' && lw[3] == 's' && lw[4] == 't';
      assert lw[6] == 'a' && lw[7] == 'm' && lw[8] == 'e';
    }
    var low := Lower(ExportHeader);
    assert low[..9] == lw by {
      forall i | 0 <= i < 9
        ensures low[..9][i] == lw[i]
      {
        assert w[i] == ExportHeader[i];
      }
    }
    assert OccursAt(low, "firstname", 0);
  }

  /**
   * A field that survives export and import unchanged: no comma, no padding and
   * no line break, since `readLine` would end the line at a '\n' or '\r'.
   */
  predicate Portable(s: string) {
    ',' !in s && '\n' !in s && '\r' !in s && Trimmed(s)
  }

  /** Every field is portable and the email is not empty. */
  predicate PortableContact(c: Contact) {
    Portable(c.fields.firstName) && Portable(c.fields.lastName) && Portable(c.fields.location)
    && Portable(c.fields.phone) && Portable(c.fields.email) && c.fields.email != []
  }

  /**
   * A contact whose fields hold no comma, no padding and no line break, with a non-empty
   * email, reads back as itself.
   */
  lemma ExportLineRoundTrip(c: Contact)
    requires PortableContact(c)
    ensures ParseLine(ExportLine(c)) == Some(FromStore(c))
  {
    var f := c.fields;
    SplitFive(f.firstName, f.lastName, f.location, f.phone, f.email);
  }

  /** Five comma-free fields joined by commas split back into themselves when the last is non-empty. */
  lemma SplitFive(a: string, b: string, c: string, d: string, e: string)
    requires ',' !in a && ',' !in b && ',' !in c && ',' !in d && ',' !in e && e != []
    ensures JavaSplit(a + "," + b + "," + c + "," + d + "," + e, ',') == [a, b, c, d, e]
  {
    var r3 := d + [','] + e;
    var r2 := c + [','] + r3;
    var r1 := b + [','] + r2;
    var line := a + "," + b + "," + c + "," + d + "," + e;
    assert line == a + [','] + r1;
    SplitAllCons(a, ',', r1);
    SplitAllCons(b, ',', r2);
    SplitAllCons(c, ',', r3);
    SplitAllCons(d, ',', e);
    SplitAllNoSep(e, ',');
    assert line[|a|] == ',';
    var parts := [a, b, c, d, e];
    assert SplitAll(line, ',') == parts;
    assert DropTrailingEmpty(parts) == parts;
  }

  /** Four comma-free fields joined by commas split back into themselves when the last is non-empty. */
  lemma SplitFour(a: string, b: string, c: string, d: string)
    requires ',' !in a && ',' !in b && ',' !in c && ',' !in d && d != []
    ensures JavaSplit(a + "," + b + "," + c + "," + d, ',') == [a, b, c, d]
  {
    var r2 := c + [','] + d;
    var r1 := b + [','] + r2;
    var line := a + "," + b + "," + c + "," + d;
    assert line == a + [','] + r1;
    SplitAllCons(a, ',', r1);
    SplitAllCons(b, ',', r2);
    SplitAllCons(c, ',', d);
    SplitAllNoSep(d, ',');
    assert line[|a|] == ',';
    var parts := [a, b, c, d];
    assert SplitAll(line, ',') == parts;
    assert DropTrailingEmpty(parts) == parts;
  }

  /** One exported line of a portable stored contact meets its own record in the store and is skipped. */
  lemma ReimportLineIsSkipped(contacts: seq<Contact>, k: nat, skipped: nat, addFails: bool)
    requires k < |contacts| && PortableContact(contacts[k])
    ensures ImportLine(Start(contacts).(skipped := skipped), ExportLine(contacts[k]), addFails)
         == Start(contacts).(skipped := skipped + 1)
  {
    var st := Start(contacts);
    var c := contacts[k];
    ExportLineRoundTrip(c);
    FindExistingWithEmails(st.existing, FromStore(c));
    assert SameImportKey(st.existing[k], FromStore(c));
  }

  /**
   * Importing an export of the store's own list, when every field is portable,
   * stores nothing: the header is skipped and every line is a duplicate.
   */
  lemma {:induction false} ReimportSkipsEverything(contacts: seq<Contact>, failing: set<nat>, n: nat)
    requires forall i :: 0 <= i < |contacts| ==> PortableContact(contacts[i])
    requires n <= |contacts|
    ensures var data := seq(|contacts|, i requires 0 <= i < |contacts| => ExportLine(contacts[i]));
      ImportPrefix(contacts, data, failing, n) == Start(contacts).(skipped := n)
  {
    var data := seq(|contacts|, i requires 0 <= i < |contacts| => ExportLine(contacts[i]));
    if n > 0 {
      ReimportSkipsEverything(contacts, failing, n - 1);
      assert data[n - 1] == ExportLine(contacts[n - 1]);
      ReimportLineIsSkipped(contacts, n - 1, n - 1, n - 1 in failing);
    }
  }

  /** The exported file's lines after the header are exactly the contact lines. */
  lemma ExportedDataLines(contacts: seq<Contact>, lines: seq<string>)
    requires |lines| == |contacts| + 1 && lines[0] == ExportHeader
    requires forall i :: 0 <= i < |contacts| ==> lines[i + 1] == ExportLine(contacts[i])
    ensures DataLines(lines) == seq(|contacts|, i requires 0 <= i < |contacts| => ExportLine(contacts[i]))
  {
    ExportHeaderIsRecognised();
  }
}

=== FILE: java_lang.dfy ===
/**
 * The parts of java.lang.String that the address book relies on, stated over
 * `seq<char>`: `trim`, `isEmpty`, ASCII `toLowerCase`, `contains`,
 * `startsWith`, `equalsIgnoreCase`, `compareTo` and `split(",")`.
 * Java's `null` is modelled by `Option`.
 */
module JavaLang {

  /** A reference that may be `null`. */
  datatype Option<+T> = None | Some(value: T)

  // ---------------------------------------------------------------------------
  // String.trim
  // ---------------------------------------------------------------------------

  /** `String.trim` strips every character whose code is at most U+0020. */
  predicate IsTrimmable(c: char) { c <= ' ' }

  predicate AllTrimmable(s: string) {
    forall i :: 0 <= i < |s| ==> IsTrimmable(s[i])
  }

  function TrimLeft(s: string): string {
    if |s| > 0 && IsTrimmable(s[0]) then TrimLeft(s[1..]) else s
  }

  function TrimRight(s: string): string {
    if |s| > 0 && IsTrimmable(s[|s| - 1]) then TrimRight(s[..|s| - 1]) else s
  }

  /** `s.trim()` */
  function Trim(s: string): string {
    TrimRight(TrimLeft(s))
  }

  /** `s.trim().isEmpty()`: the string holds nothing but characters trim removes. */
  predicate IsBlank(s: string) {
    Trim(s) == []
  }

  lemma {:induction false} TrimLeftShape(s: string)
    ensures |TrimLeft(s)| <= |s|
    ensures TrimLeft(s) == s[|s| - |TrimLeft(s)|..]
    ensures AllTrimmable(s[..|s| - |TrimLeft(s)|])
    ensures TrimLeft(s) != [] ==> !IsTrimmable(TrimLeft(s)[0])
  {
    if |s| > 0 && IsTrimmable(s[0]) {
      TrimLeftShape(s[1..]);
      var k := |s| - |TrimLeft(s)|;
      assert s[..k] == [s[0]] + s[1..][..k - 1];
    }
  }

  lemma {:induction false} TrimRightShape(s: string)
    ensures |TrimRight(s)| <= |s|
    ensures TrimRight(s) == s[..|TrimRight(s)|]
    ensures AllTrimmable(s[|TrimRight(s)|..])
    ensures TrimRight(s) != [] ==> !IsTrimmable(TrimRight(s)[|TrimRight(s)| - 1])
  {
    if |s| > 0 && IsTrimmable(s[|s| - 1]) {
      var t := s[..|s| - 1];
      TrimRightShape(t);
      var k := |TrimRight(s)|;
      assert s[k..] == t[k..] + [s[|s| - 1]];
    }
  }

  /** Where the result of `trim` begins in its input. */
  function TrimStart(s: string): int {
    |s| - |TrimLeft(s)|
  }

  /** The result of `trim` is a slice of the input that neither starts nor ends with a trimmable character. */
  lemma TrimShape(s: string)
    ensures |Trim(s)| <= |s|
    ensures Trim(s) != [] ==> !IsTrimmable(Trim(s)[0]) && !IsTrimmable(Trim(s)[|Trim(s)| - 1])
    ensures 0 <= TrimStart(s) && TrimStart(s) + |Trim(s)| <= |s|
    ensures Trim(s) == s[TrimStart(s)..TrimStart(s) + |Trim(s)|]
  {
    TrimLeftShape(s);
    TrimRightShape(TrimLeft(s));
  }

  lemma {:induction false} TrimLeftOfTrimmable(s: string)
    requires AllTrimmable(s)
    ensures TrimLeft(s) == []
  {
    if |s| > 0 { TrimLeftOfTrimmable(s[1..]); }
  }

  lemma {:induction false} TrimRightOfTrimmable(s: string)
    requires AllTrimmable(s)
    ensures TrimRight(s) == []
  {
    if |s| > 0 { TrimRightOfTrimmable(s[..|s| - 1]); }
  }

  /** A string is blank exactly when every character in it is trimmable. */
  lemma BlankIffAllTrimmable(s: string)
    ensures IsBlank(s) <==> AllTrimmable(s)
  {
    if AllTrimmable(s) {
      TrimLeftOfTrimmable(s);
    }
    if IsBlank(s) {
      var l := TrimLeft(s);
      TrimLeftShape(s);
      TrimRightShape(l);
      assert AllTrimmable(s[..|s| - |l|]);
      assert AllTrimmable(l);
      assert s == s[..|s| - |l|] + l;
    }
  }

  lemma {:induction false} TrimLeftSkipsPrefix(pre: string, s: string)
    requires AllTrimmable(pre)
    ensures TrimLeft(pre + s) == TrimLeft(s)
  {
    if |pre| > 0 {
      assert (pre + s)[0] == pre[0] && IsTrimmable(pre[0]);
      assert (pre + s)[1..] == pre[1..] + s;
      assert TrimLeft(pre + s) == TrimLeft(pre[1..] + s);
      TrimLeftSkipsPrefix(pre[1..], s);
    } else {
      assert pre + s == s;
    }
  }

  lemma {:induction false} TrimRightSkipsSuffix(s: string, post: string)
    requires AllTrimmable(post)
    ensures TrimRight(s + post) == TrimRight(s)
  {
    if |post| > 0 {
      var q := post[..|post| - 1];
      assert (s + post)[..|s + post| - 1] == s + q;
      TrimRightSkipsSuffix(s, q);
    } else {
      assert s + post == s;
    }
  }

  lemma {:induction false} TrimLeftKeepsSuffix(s: string, post: string)
    requires !AllTrimmable(s)
    ensures TrimLeft(s + post) == TrimLeft(s) + post
  {
    if IsTrimmable(s[0]) {
      assert (s + post)[1..] == s[1..] + post;
      assert !AllTrimmable(s[1..]) by {
        var i :| 0 <= i < |s| && !IsTrimmable(s[i]);
        assert s[1..][i - 1] == s[i];
      }
      TrimLeftKeepsSuffix(s[1..], post);
    }
  }

  lemma TrimmableConcat(a: string, b: string)
    requires AllTrimmable(a) && AllTrimmable(b)
    ensures AllTrimmable(a + b)
  {
  }

  /**
   * Surrounding a string with characters that `trim` removes does not change
   * what `trim` returns.
   */
  lemma TrimIgnoresPadding(pre: string, s: string, post: string)
    requires AllTrimmable(pre) && AllTrimmable(post)
    ensures Trim(pre + s + post) == Trim(s)
  {
    assert pre + s + post == pre + (s + post);
    TrimLeftSkipsPrefix(pre, s + post);
    if AllTrimmable(s) {
      TrimmableConcat(s, post);
      TrimLeftOfTrimmable(s + post);
      TrimLeftOfTrimmable(s);
    } else {
      TrimLeftKeepsSuffix(s, post);
      TrimRightSkipsSuffix(TrimLeft(s), post);
    }
  }

  /** A string with no padding is its own trim. */
  lemma TrimOfUnpadded(s: string)
    requires s != [] ==> !IsTrimmable(s[0]) && !IsTrimmable(s[|s| - 1])
    ensures Trim(s) == s
  {
  }

  /** `trim` is idempotent. */
  lemma TrimIdempotent(s: string)
    ensures Trim(Trim(s)) == Trim(s)
  {
    var t := Trim(s);
    TrimShape(s);
    if t != [] {
      assert TrimLeft(t) == t;
      assert TrimRight(t) == t;
    }
  }

  // ---------------------------------------------------------------------------
  // Case mapping (ASCII only) and searching
  // ---------------------------------------------------------------------------

  /** `Character.toLowerCase` restricted to ASCII letters. */
  function LowerChar(c: char): char {
    if 'A' <= c <= 'Z' then (c as int + 32) as char else c
  }

  /** `s.toLowerCase()` for ASCII text. */
  function Lower(s: string): string {
    seq(|s|, i requires 0 <= i < |s| => LowerChar(s[i]))
  }

  /** Lower-casing twice is lower-casing once. */
  lemma LowerIdempotent(s: string)
    ensures Lower(Lower(s)) == Lower(s)
  {
  }

  /** `s.startsWith(p)` */
  predicate StartsWith(s: string, p: string) {
    |p| <= |s| && s[..|p|] == p
  }

  /** `s.contains(t)`: `t` occurs in `s` at some offset. */
  predicate Contains(s: string, t: string) {
    exists i | 0 <= i <= |s| - |t| :: OccursAt(s, t, i)
  }

  /** `t` occurs in `s` starting at index `i`. */
  predicate OccursAt(s: string, t: string, i: int) {
    0 <= i <= |s| - |t| && s[i..i + |t|] == t
  }

  /** `s.toLowerCase().contains(t.toLowerCase())`, which is also what a `(?i)` quoted-literal `find` does for ASCII. */
  predicate ContainsIgnoreCase(s: string, t: string) {
    Contains(Lower(s), Lower(t))
  }

  /** `a.equalsIgnoreCase(b)` for ASCII text; a `null` argument is never equal. */
  predicate EqualsIgnoreCase(a: string, b: Option<string>) {
    b.Some? && Lower(a) == Lower(b.value)
  }

  // ---------------------------------------------------------------------------
  // String.compareTo
  // ---------------------------------------------------------------------------

  /**
   * `a.compareTo(b)`: the difference of the first differing characters, or of
   * the lengths when one string is a prefix of the other.
   */
  function CompareTo(a: string, b: string): int {
    if |a| == 0 || |b| == 0 then |a| - |b|
    else if a[0] != b[0] then a[0] as int - b[0] as int
    else CompareTo(a[1..], b[1..])
  }

  /** The order `compareTo` induces: `a` is not after `b`. */
  predicate NotAfter(a: string, b: string) {
    CompareTo(a, b) <= 0
  }

  lemma {:induction false} CompareToZero(a: string, b: string)
    ensures CompareTo(a, b) == 0 <==> a == b
  {
    if |a| > 0 && |b| > 0 && a[0] == b[0] {
      CompareToZero(a[1..], b[1..]);
      if a[1..] == b[1..] {
        assert a == [a[0]] + a[1..];
        assert b == [b[0]] + b[1..];
      }
    }
  }

  lemma {:induction false} CompareToAntisymmetric(a: string, b: string)
    ensures CompareTo(a, b) == -CompareTo(b, a)
  {
    if |a| > 0 && |b| > 0 && a[0] == b[0] {
      CompareToAntisymmetric(a[1..], b[1..]);
    }
  }

  /** `compareTo` orders all strings totally. */
  lemma NotAfterTotal(a: string, b: string)
    ensures NotAfter(a, b) || NotAfter(b, a)
  {
    CompareToAntisymmetric(a, b);
  }

  lemma {:induction false} NotAfterTransitive(a: string, b: string, c: string)
    requires NotAfter(a, b) && NotAfter(b, c)
    ensures NotAfter(a, c)
  {
    if |a| == 0 || |c| == 0 {
      if |c| == 0 && |a| > 0 {
        // b must be empty too, and then a cannot be before it
        assert |b| == 0;
      }
    } else if |b| == 0 {
    } else if a[0] != b[0] || b[0] != c[0] {
    } else {
      NotAfterTransitive(a[1..], b[1..], c[1..]);
    }
  }

  // ---------------------------------------------------------------------------
  // String.split(",")
  // ---------------------------------------------------------------------------

  /** The pieces of `s` between every occurrence of `sep`, empty ones included. */
  function SplitAll(s: string, sep: char): (parts: seq<string>)
    ensures |parts| >= 1
  {
    if |s| == 0 then [[]]
    else
      var rest := SplitAll(s[1..], sep);
      if s[0] == sep then [[]] + rest
      else [[s[0]] + rest[0]] + rest[1..]
  }

  function DropTrailingEmpty(parts: seq<string>): seq<string> {
    if |parts| > 0 && parts[|parts| - 1] == [] then DropTrailingEmpty(parts[..|parts| - 1])
    else parts
  }

  /**
   * `s.split(String.valueOf(sep))`: when `sep` does not occur the result is `[s]`;
   * otherwise it is every piece with the trailing empty pieces removed.
   */
  function JavaSplit(s: string, sep: char): seq<string> {
    if sep !in s then [s] else DropTrailingEmpty(SplitAll(s, sep))
  }

  lemma {:induction false} SplitAllNoSep(s: string, sep: char)
    requires sep !in s
    ensures SplitAll(s, sep) == [s]
  {
    if |s| > 0 {
      SplitAllNoSep(s[1..], sep);
      assert [s[0]] + s[1..] == s;
    }
  }

  lemma {:induction false} SplitAllCons(x: string, sep: char, rest: string)
    requires sep !in x
    ensures SplitAll(x + [sep] + rest, sep) == [x] + SplitAll(rest, sep)
  {
    if |x| == 0 {
      assert x + [sep] + rest == [sep] + rest;
      assert ([sep] + rest)[1..] == rest;
    } else {
      assert (x + [sep] + rest)[1..] == x[1..] + [sep] + rest;
      SplitAllCons(x[1..], sep, rest);
      assert [x[0]] + x[1..] == x;
    }
  }
}

=== FILE: legacy_contact_page.dfy ===
/**
 * What the older contact screen adds to the shared screen: each of its
 * phone and email fields has a focus listener with its own `isValid` flag.
 * Gaining focus records whether the text is valid at that moment; losing
 * focus shows an error, and pulls the focus back, only when the text was
 * invalid on entry and is still invalid on exit.
 */
module LegacyContactPage {
  import opened ContactModel
  import opened ContactValidator
  import opened TableRows
  import opened ContactPage

  /** The older screen's phone pattern, `^\+[1-9]\d{9,14}$`, on the text as typed. */
  predicate LegacyPhoneValid(text: string) {
    PhonePattern(text, LegacyPhoneMinDigits, PhoneMaxDigits)
  }

  /** The older screen: the shared screen with the 9-digit lower bound, showing the store's contacts. */
  method NewLegacyContactPage(contacts: seq<Contact>) returns (page: ContactPage)
    ensures fresh(page)
    ensures page.phoneMinDigits == LegacyPhoneMinDigits
    ensures page.rows == RowsOf(contacts) && page.query == [] && page.inputs == EmptyInputs && page.selectedCid == -1
  {
    page := new ContactPage(LegacyPhoneMinDigits, contacts);
  }

  /** One field's focus listener with its `isValid` flag. */
  class FocusValidator {
    /** The check the field's text must pass. */
    const accepts: string -> bool
    /** Whether the text was valid when the field last gained focus. */
    var isValid: bool

    /** The flag starts out false. */
    constructor(accepts: string -> bool)
      ensures this.accepts == accepts && !isValid
    {
      this.accepts := accepts;
      isValid := false;
    }

    /** `focusGained`: remember whether the text is valid now. */
    method FocusGained(text: string)
      modifies this`isValid
      ensures isValid == accepts(text)
    {
      isValid := accepts(text);
    }

    /**
     * `focusLost`: report an error (and request the focus back) exactly when
     * the text was invalid on entry and is invalid now. The flag is left as it was.
     */
    method FocusLost(text: string) returns (error: bool)
      ensures error <==> !isValid && !accepts(text)
      ensures isValid ==> !error
    {
      error := !isValid && !accepts(text);
    }
  }

  /** The phone field's listener. */
  method NewPhoneFocusValidator() returns (v: FocusValidator)
    ensures fresh(v) && !v.isValid
    ensures forall text :: v.accepts(text) == LegacyPhoneValid(text)
  {
    v := new FocusValidator(LegacyPhoneValid);
  }

  /** The email field's listener. */
  method NewEmailFocusValidator() returns (v: FocusValidator)
    ensures fresh(v) && !v.isValid
    ensures forall text :: v.accepts(text) == EmailMatches(text)
  {
    v := new FocusValidator(EmailMatches);
  }
}

=== FILE: seqs.dfy ===
/**
 * The two stream operations the address book applies to lists of contacts:
 * `filter(...).toList()`, which keeps the matching elements in encounter
 * order, and `sorted(comparator).toList()`, which is a stable sort.
 */
module Seqs {
  import opened JavaLang

  // ---------------------------------------------------------------------------
  // Stream.filter
  // ---------------------------------------------------------------------------

  /** `xs.stream().filter(p).toList()` */
  function Filter<T>(xs: seq<T>, p: T -> bool): (ys: seq<T>)
    ensures |ys| <= |xs|
    ensures forall y :: y in ys ==> y in xs && p(y)
  {
    if xs == [] then []
    else (if p(xs[0]) then [xs[0]] else []) + Filter(xs[1..], p)
  }

  /** `ys` is `xs` with some elements deleted, the rest kept in order. */
  predicate IsSubsequence<T(==)>(ys: seq<T>, xs: seq<T>) {
    if ys == [] then true
    else if xs == [] then false
    else if ys[0] == xs[0] then IsSubsequence(ys[1..], xs[1..])
    else IsSubsequence(ys, xs[1..])
  }

  /** A subsequence of the tail is a subsequence of the whole. */
  lemma {:induction false} SubsequenceOfTail<T>(ys: seq<T>, xs: seq<T>)
    requires |xs| > 0 && IsSubsequence(ys, xs[1..])
    ensures IsSubsequence(ys, xs)
    decreases |ys| + |xs|
  {
    if ys != [] && ys[0] == xs[0] {
      DropHead(ys, xs[1..]);
    }
  }

  lemma {:induction false} DropHead<T>(ys: seq<T>, xs: seq<T>)
    requires ys != [] && IsSubsequence(ys, xs)
    ensures IsSubsequence(ys[1..], xs)
    decreases |ys| + |xs|
  {
    if xs != [] {
      if ys[0] == xs[0] {
        SubsequenceOfTail(ys[1..], xs);
      } else {
        DropHead(ys, xs[1..]);
        SubsequenceOfTail(ys[1..], xs);
      }
    }
  }

  lemma {:induction false} SubsequenceOfSelf<T>(xs: seq<T>)
    ensures IsSubsequence(xs, xs)
  {
    if xs != [] {
      SubsequenceOfSelf(xs[1..]);
    }
  }

  /** The filtered list keeps the survivors in their original order. */
  lemma {:induction false} FilterIsSubsequence<T>(xs: seq<T>, p: T -> bool)
    ensures IsSubsequence(Filter(xs, p), xs)
  {
    if xs != [] {
      FilterIsSubsequence(xs[1..], p);
      if p(xs[0]) {
        assert Filter(xs, p) == [xs[0]] + Filter(xs[1..], p);
        assert Filter(xs, p)[1..] == Filter(xs[1..], p);
      } else {
        assert Filter(xs, p) == Filter(xs[1..], p);
        SubsequenceOfTail(Filter(xs, p), xs);
      }
    }
  }

  /** Every element that satisfies the predicate survives, as often as it occurs; no other does. */
  lemma {:induction false} FilterCounts<T>(xs: seq<T>, p: T -> bool, x: T)
    ensures multiset(Filter(xs, p))[x] == if p(x) then multiset(xs)[x] else 0
  {
    if xs != [] {
      FilterCounts(xs[1..], p, x);
      assert xs == [xs[0]] + xs[1..];
    }
  }

  lemma FilterMembership<T>(xs: seq<T>, p: T -> bool, x: T)
    ensures x in Filter(xs, p) <==> x in xs && p(x)
  {
    FilterCounts(xs, p, x);
  }

  /** A predicate every element satisfies filters nothing out. */
  lemma {:induction false} FilterKeepsAll<T>(xs: seq<T>, p: T -> bool)
    requires forall i :: 0 <= i < |xs| ==> p(xs[i])
    ensures Filter(xs, p) == xs
  {
    if xs != [] {
      FilterKeepsAll(xs[1..], p);
      assert [xs[0]] + xs[1..] == xs;
    }
  }

  // ---------------------------------------------------------------------------
  // Stream.sorted: a stable sort on a string key
  // ---------------------------------------------------------------------------

  /** Consecutive elements are in `compareTo` order of their keys. */
  predicate SortedByKey<T>(ys: seq<T>, key: T -> string) {
    forall i :: 0 < i < |ys| ==> NotAfter(key(ys[i - 1]), key(ys[i]))
  }

  /** Places `x` before the first element whose key is not before its own. */
  function InsertByKey<T>(x: T, ys: seq<T>, key: T -> string): seq<T> {
    if ys == [] || NotAfter(key(x), key(ys[0])) then [x] + ys
    else [ys[0]] + InsertByKey(x, ys[1..], key)
  }

  /**
   * `xs.stream().sorted(comparing(key)).toList()`: insertion sort from the back,
   * each element going in front of the equal keys that follow it, so equal
   * keys keep their encounter order.
   */
  function SortByKey<T>(xs: seq<T>, key: T -> string): seq<T> {
    if xs == [] then [] else InsertByKey(xs[0], SortByKey(xs[1..], key), key)
  }

  /** The elements of `xs` whose key is `k`, in order. */
  function WithKey<T>(xs: seq<T>, key: T -> string, k: string): seq<T> {
    Filter(xs, (y: T) => key(y) == k)
  }

  lemma {:induction false} InsertHead<T>(x: T, ys: seq<T>, key: T -> string)
    ensures InsertByKey(x, ys, key) != []
    ensures InsertByKey(x, ys, key)[0] == x || (ys != [] && InsertByKey(x, ys, key)[0] == ys[0])
  {
  }

  lemma {:induction false} InsertSorted<T>(x: T, ys: seq<T>, key: T -> string)
    requires SortedByKey(ys, key)
    ensures SortedByKey(InsertByKey(x, ys, key), key)
  {
    if ys != [] && !NotAfter(key(x), key(ys[0])) {
      NotAfterTotal(key(x), key(ys[0]));
      var rest := InsertByKey(x, ys[1..], key);
      assert SortedByKey(ys[1..], key) by {
        forall i | 0 < i < |ys[1..]|
          ensures NotAfter(key(ys[1..][i - 1]), key(ys[1..][i]))
        {
          assert ys[1..][i - 1] == ys[i] && ys[1..][i] == ys[i + 1];
        }
      }
      InsertSorted(x, ys[1..], key);
      InsertHead(x, ys[1..], key);
      var r := [ys[0]] + rest;
      forall i | 0 < i < |r|
        ensures NotAfter(key(r[i - 1]), key(r[i]))
      {
        if i > 1 {
          assert r[i - 1] == rest[i - 2] && r[i] == rest[i - 1];
        }
      }
    }
  }

  lemma {:induction false} InsertPermutes<T>(x: T, ys: seq<T>, key: T -> string)
    ensures multiset(InsertByKey(x, ys, key)) == multiset(ys) + multiset{x}
  {
    if ys != [] && !NotAfter(key(x), key(ys[0])) {
      InsertPermutes(x, ys[1..], key);
      assert ys == [ys[0]] + ys[1..];
    }
  }

  /** Inserting `x` adds it in front of the elements that share its key and leaves the other keys' runs alone. */
  lemma {:induction false} InsertWithKey<T>(x: T, ys: seq<T>, key: T -> string, k: string)
    ensures WithKey(InsertByKey(x, ys, key), key, k)
         == (if key(x) == k then [x] else []) + WithKey(ys, key, k)
  {
    if ys == [] || NotAfter(key(x), key(ys[0])) {
      assert (([x] + ys)[1..]) == ys;
    } else {
      CompareToZero(key(x), key(ys[0]));
      assert key(x) != key(ys[0]);
      InsertWithKey(x, ys[1..], key, k);
      var r := [ys[0]] + InsertByKey(x, ys[1..], key);
      assert r[1..] == InsertByKey(x, ys[1..], key);
    }
  }

  /** The sort returns a list ordered by the key. */
  lemma {:induction false} SortIsSorted<T>(xs: seq<T>, key: T -> string)
    ensures SortedByKey(SortByKey(xs, key), key)
  {
    if xs != [] {
      SortIsSorted(xs[1..], key);
      InsertSorted(xs[0], SortByKey(xs[1..], key), key);
    }
  }

  /** The sort returns a permutation of its input. */
  lemma {:induction false} SortPermutes<T>(xs: seq<T>, key: T -> string)
    ensures multiset(SortByKey(xs, key)) == multiset(xs)
  {
    if xs != [] {
      SortPermutes(xs[1..], key);
      InsertPermutes(xs[0], SortByKey(xs[1..], key), key);
      assert xs == [xs[0]] + xs[1..];
    }
  }

  /** The sort is stable: the elements sharing any one key appear in their original order. */
  lemma {:induction false} SortIsStable<T>(xs: seq<T>, key: T -> string, k: string)
    ensures WithKey(SortByKey(xs, key), key, k) == WithKey(xs, key, k)
  {
    if xs != [] {
      SortIsStable(xs[1..], key, k);
      InsertWithKey(xs[0], SortByKey(xs[1..], key), key, k);
    }
  }

  /** Adjacent order extends to any two positions. */
  lemma {:induction false} SortedPairwise<T>(ys: seq<T>, key: T -> string, i: int, j: int)
    requires SortedByKey(ys, key)
    requires 0 <= i <= j < |ys|
    ensures NotAfter(key(ys[i]), key(ys[j]))
    decreases j - i
  {
    if i == j {
      CompareToZero(key(ys[i]), key(ys[j]));
    } else {
      SortedPairwise(ys, key, i, j - 1);
      NotAfterTransitive(key(ys[i]), key(ys[j - 1]), key(ys[j]));
    }
  }
}

=== FILE: table_rows.dfy ===
/**
 * The contact table shared by the contact screens: a row buffer with the
 * columns (cid, first name, last name, location, phone, email), and the
 * search box's row filter `regexFilter("(?i)" + Pattern.quote(query), 1, 2, 3, 4, 5)`.
 * A quoted pattern with the ASCII-only `(?i)` flag finds exactly the literal,
 * ASCII-case-insensitive occurrences of the query, so the filter is a
 * substring test on the five text columns; the id column is never searched.
 */
module TableRows {
  import opened JavaLang
  import opened Seqs
  import opened ContactModel

  /** One table row: column 0 is the id, columns 1-5 the text fields. */
  datatype Row = Row(cid: int, fields: ContactFields)

  /** `new Object[]{ c.getCid(), c.getFirstName(), ..., c.getEmail() }` */
  function RowOf(c: Contact): Row {
    Row(c.cid, c.fields)
  }

  /** The rows a reload produces: one per contact, in list order. */
  function RowsOf(contacts: seq<Contact>): (rows: seq<Row>)
    ensures |rows| == |contacts|
    ensures forall i :: 0 <= i < |contacts| ==> rows[i] == RowOf(contacts[i])
  {
    seq(|contacts|, i requires 0 <= i < |contacts| => RowOf(contacts[i]))
  }

  /** Columns 1-5 of each row, in order. */
  function Columns(rows: seq<Row>): (fields: seq<ContactFields>)
    ensures |fields| == |rows|
    ensures forall i :: 0 <= i < |rows| ==> fields[i] == rows[i].fields
  {
    seq(|rows|, i requires 0 <= i < |rows| => rows[i].fields)
  }

  /** The query occurs, ignoring ASCII case, in one of columns 1-5. */
  predicate RowMatches(query: string, r: Row) {
    ContainsIgnoreCase(r.fields.firstName, query)
    || ContainsIgnoreCase(r.fields.lastName, query)
    || ContainsIgnoreCase(r.fields.location, query)
    || ContainsIgnoreCase(r.fields.phone, query)
    || ContainsIgnoreCase(r.fields.email, query)
  }

  /**
   * The rows the table shows (its view rows): all of them when the query is
   * empty, since the row filter is then removed, otherwise the matching ones
   * in model order.
   */
  function ViewRows(rows: seq<Row>, query: string): (view: seq<Row>)
    ensures query == [] ==> view == rows
  {
    if query == [] then rows else Filter(rows, r => RowMatches(query, r))
  }

  /** A row is shown exactly when the query is empty or matches one of its text columns. */
  lemma ViewShowsMatching(rows: seq<Row>, query: string, r: Row)
    ensures r in ViewRows(rows, query) <==> r in rows && (query == [] || RowMatches(query, r))
  {
    if query != [] {
      FilterMembership(rows, r => RowMatches(query, r), r);
    }
  }

  /** Filtering hides rows but never reorders them or invents new ones. */
  lemma ViewIsSubsequence(rows: seq<Row>, query: string)
    ensures IsSubsequence(ViewRows(rows, query), rows)
  {
    if query == [] {
      SubsequenceOfSelf(rows);
    } else {
      FilterIsSubsequence(rows, r => RowMatches(query, r));
    }
  }
}

=== FILE: theme_manager.dfy ===
/**
 * The current application's theme manager: three themes, the theme in use,
 * and the properties file that remembers it. The file is a field holding the
 * value of its "theme" property: `None` when the file cannot be read,
 * `Some(None)` when it has no such property. Whether installing a
 * look-and-feel or writing the file fails is an input.
 */
module ThemeManager {
  import opened JavaLang

  datatype Theme = Light | Dark | IntelliJ

  /** The themes in declaration order, the order `values()` returns. */
  const Values: seq<Theme> := [Light, Dark, IntelliJ]

  /** The enum constant's `name()`, which is what the file stores. */
  function Name(t: Theme): string {
    match t
    case Light => "LIGHT"
    case Dark => "DARK"
    case IntelliJ => "INTELLIJ"
  }

  function DisplayName(t: Theme): string {
    match t
    case Light => "Light"
    case Dark => "Dark"
    case IntelliJ => "IntelliJ"
  }

  /** `createLaf`: the look-and-feel class each theme installs. */
  function ClassName(t: Theme): string {
    match t
    case Light => "FlatLightLaf"
    case Dark => "FlatDarkLaf"
    case IntelliJ => "FlatIntelliJLaf"
  }

  /** `values()` lists every theme. */
  lemma EveryThemeListed()
    ensures forall t :: t in Values
  {
    forall t: Theme
      ensures t in Values
    {
      match t
      case Light => assert Values[0] == t;
      case Dark => assert Values[1] == t;
      case IntelliJ => assert Values[2] == t;
    }
  }

  /** The first theme, in `values()` order, whose label under `labelOf` is `text`. */
  function FirstLabelled(themes: seq<Theme>, labelOf: Theme -> string, text: string): (r: Option<Theme>)
    ensures r.Some? ==> r.value in themes && labelOf(r.value) == text
    ensures r.None? ==> forall t :: t in themes ==> labelOf(t) != text
  {
    if themes == [] then None
    else if labelOf(themes[0]) == text then Some(themes[0])
    else FirstLabelled(themes[1..], labelOf, text)
  }

  /** The theme a stored name selects, if any. */
  function ThemeNamed(name: string): (r: Option<Theme>)
    ensures r.Some? ==> Name(r.value) == name
    ensures r.None? ==> forall t :: Name(t) != name
  {
    EveryThemeListed();
    FirstLabelled(Values, Name, name)
  }

  /**
   * What `loadSavedTheme` makes current: the light theme when the file cannot
   * be read; otherwise the theme the stored name (by default "LIGHT") selects,
   * or the current theme when the name selects none.
   */
  function LoadedTheme(current: Theme, file: Option<Option<string>>): Theme {
    if file.None? then Light
    else
      var name := if file.value.Some? then file.value.value else "LIGHT";
      match ThemeNamed(name)
      case Some(t) => t
      case None => current
  }

  /** What `saveTheme` writes: the theme's `name()`. */
  function SavedFile(t: Theme): Option<Option<string>> {
    Some(Some(Name(t)))
  }

  /**
   * How `saveTheme`'s write ends. Opening the `FileOutputStream` truncates the
   * file, so a failure there leaves the file as it was, while a failure in
   * `props.store` after the open leaves a file without the theme entry.
   */
  datatype Write = Written | OpenFails | StoreFails

  /** The file after `saveTheme(t)` ends as `w` says. */
  function FileAfterSave(t: Theme, before: Option<Option<string>>, w: Write): (after: Option<Option<string>>)
    ensures w == Written ==> after == SavedFile(t)
    ensures w == OpenFails ==> after == before
    ensures w == StoreFails ==> after == Some(None)
  {
    match w
    case Written => SavedFile(t)
    case OpenFails => before
    case StoreFails => Some(None)
  }

  /** A save that fails in `props.store` makes the next load fall back to the light theme. */
  lemma LoadAfterFailedStore(t: Theme, current: Theme, before: Option<Option<string>>)
    ensures LoadedTheme(current, FileAfterSave(t, before, StoreFails)) == Light
  {
    assert Name(Light) == "LIGHT";
  }

  /** Loading what was saved brings back the saved theme, whatever was current. */
  lemma LoadAfterSave(t: Theme, current: Theme)
    ensures LoadedTheme(current, SavedFile(t)) == t
  {
    var r := ThemeNamed(Name(t));
    match t
    case Light => assert r.value == Light;
    case Dark => assert r.value == Dark;
    case IntelliJ => assert r.value == IntelliJ;
  }

  /** A stored name that is not an enum constant's, such as a display name, leaves the current theme. */
  lemma UnknownNameKeepsTheme(current: Theme)
    ensures LoadedTheme(current, Some(Some("Dark"))) == current
  {
  }

  class ThemeManager {
    var currentTheme: Theme
    /** The properties file's "theme" value. */
    var file: Option<Option<string>>

    /** The light theme is current before anything is loaded. */
    constructor(file: Option<Option<string>>)
      ensures currentTheme == Light && this.file == file
    {
      currentTheme := Light;
      this.file := file;
    }

    /** `loadSavedTheme`: the loop over `values()` that stops at the first matching name. */
    method LoadSavedTheme()
      modifies this`currentTheme
      ensures currentTheme == LoadedTheme(old(currentTheme), file)
    {
      if file.None? {
        currentTheme := Light;
        return;
      }
      var themeName := if file.value.Some? then file.value.value else "LIGHT";
      var i := 0;
      while i < |Values|
        invariant 0 <= i <= |Values|
        invariant FirstLabelled(Values, Name, themeName) == FirstLabelled(Values[i..], Name, themeName)
        invariant currentTheme == old(currentTheme)
      {
        if Name(Values[i]) == themeName {
          currentTheme := Values[i];
          break;
        }
        assert Values[i..][1..] == Values[i + 1..];
        i := i + 1;
      }
    }

    /**
     * `saveTheme`: writes the theme's name. A failed open leaves the file as it
     * was; a failed store leaves the truncated file without the theme entry.
     */
    method SaveTheme(t: Theme, write: Write)
      modifies this`file
      ensures file == FileAfterSave(t, old(file), write)
    {
      match write
      case Written => file := SavedFile(t);
      case OpenFails =>
      case StoreFails => file := Some(None);
    }

    /**
     * `applyTheme`: when the look-and-feel installs, the theme becomes current
     * and is saved; when it fails, neither the theme nor the file changes.
     */
    method ApplyTheme(t: Theme, lafFails: bool, write: Write)
      modifies this`currentTheme, this`file
      ensures lafFails ==> currentTheme == old(currentTheme) && file == old(file)
      ensures !lafFails ==> currentTheme == t && file == FileAfterSave(t, old(file), write)
    {
      if lafFails {
        return;
      }
      currentTheme := t;
      SaveTheme(t, write);
    }

    /** `initialize`: load the saved theme, then apply it. */
    method Initialize(lafFails: bool, write: Write)
      modifies this`currentTheme, this`file
      ensures currentTheme == LoadedTheme(old(currentTheme), old(file))
      ensures !lafFails ==> file == FileAfterSave(currentTheme, old(file), write)
      ensures !lafFails && write == Written ==> file == SavedFile(currentTheme)
      ensures lafFails ==> file == old(file)
    {
      LoadSavedTheme();
      ApplyTheme(currentTheme, lafFails, write);
    }

    /**
     * `showThemeSelector`: cancelling changes nothing; otherwise the theme
     * whose display name is the selection is applied.
     */
    method ShowThemeSelector(selected: Option<string>, lafFails: bool, write: Write)
      modifies this`currentTheme, this`file
      ensures selected.None? || lafFails ==> currentTheme == old(currentTheme) && file == old(file)
      ensures selected.Some? && !lafFails ==>
        currentTheme == (match FirstLabelled(Values, DisplayName, selected.value)
                         case Some(t) => t
                         case None => old(currentTheme))
      ensures selected.Some? && FirstLabelled(Values, DisplayName, selected.value).None? ==> file == old(file)
      ensures selected.Some? && FirstLabelled(Values, DisplayName, selected.value).Some? && !lafFails ==>
        file == FileAfterSave(currentTheme, old(file), write)
    {
      if selected.None? {
        return;
      }
      var themes := Values;
      for i := 0 to |themes|
        invariant FirstLabelled(Values, DisplayName, selected.value) == FirstLabelled(themes[i..], DisplayName, selected.value)
        invariant currentTheme == old(currentTheme) && file == old(file)
      {
        if DisplayName(themes[i]) == selected.value {
          ApplyTheme(themes[i], lafFails, write);
          return;
        }
        assert themes[i..][1..] == themes[i + 1..];
      }
    }
  }

  /** The dialog offers every theme's display name, and each selects its own theme. */
  lemma DisplayNameSelectsTheme(t: Theme)
    ensures FirstLabelled(Values, DisplayName, DisplayName(t)) == Some(t)
  {
    match t
    case Light =>
    case Dark => assert Values[1..] == [Dark, IntelliJ];
    case IntelliJ => assert Values[1..][1..] == [IntelliJ];
  }
}

=== FILE: theme_utils.dfy ===
/**
 * The older application's theme helper: four themes, each naming the
 * look-and-feel class it installs, a lookup from class name to theme that
 * falls back to the flat light theme, and the installation itself, which
 * falls back to the flat light look-and-feel when setting up the chosen one
 * throws.
 */
module ThemeUtils {
  import opened JavaLang

  datatype Theme = FlatLight | FlatDark | MacLight | MacDark

  /** The themes in declaration order, the order `values()` returns. */
  const Values: seq<Theme> := [FlatLight, FlatDark, MacLight, MacDark]

  /** `values()` lists every theme. */
  lemma EveryThemeListed()
    ensures forall t :: t in Values
  {
    forall t: Theme
      ensures t in Values
    {
      match t
      case FlatLight => assert Values[0] == t;
      case FlatDark => assert Values[1] == t;
      case MacLight => assert Values[2] == t;
      case MacDark => assert Values[3] == t;
    }
  }

  function ClassName(t: Theme): string {
    match t
    case FlatLight => "FlatLightLaf"
    case FlatDark => "FlatDarkLaf"
    case MacLight => "FlatMacLightLaf"
    case MacDark => "FlatMacDarkLaf"
  }

  /** No two themes share a class name. */
  lemma ClassNamesDistinct(s: Theme, t: Theme)
    ensures ClassName(s) == ClassName(t) ==> s == t
  {
  }

  /** The first of `themes` whose class name is exactly `themeName`; a missing name matches none. */
  function FirstWithClassName(themes: seq<Theme>, themeName: Option<string>): (r: Option<Theme>)
    ensures r.Some? ==> r.value in themes && themeName == Some(ClassName(r.value))
    ensures r.None? ==> forall t :: t in themes ==> themeName != Some(ClassName(t))
  {
    if themes == [] then None
    else if themeName == Some(ClassName(themes[0])) then Some(themes[0])
    else FirstWithClassName(themes[1..], themeName)
  }

  /** `Theme.fromString`: the theme with that exact class name, or the flat light theme. */
  function FromString(themeName: Option<string>): (t: Theme)
    ensures (exists s :: themeName == Some(ClassName(s))) ==> themeName == Some(ClassName(t))
    ensures (forall s :: themeName != Some(ClassName(s))) ==> t == FlatLight
  {
    match FirstWithClassName(Values, themeName)
    case Some(t) => t
    case None =>
      EveryThemeListed();
      FlatLight
  }

  /** Each theme's class name leads back to the theme. */
  lemma FromStringRoundTrip(t: Theme)
    ensures FromString(Some(ClassName(t))) == t
  {
    ClassNamesDistinct(FromString(Some(ClassName(t))), t);
  }

  /** Matching is case-sensitive: a lower-cased class name is unknown. */
  lemma FromStringIsCaseSensitive()
    ensures FromString(Some("flatdarklaf")) == FlatLight
  {
    forall s: Theme
      ensures Some("flatdarklaf") != Some(ClassName(s))
    {
      assert ClassName(s)[0] == 'F';
    }
  }

  /**
   * How a look-and-feel's static `setup()` ends: it installs the class and
   * returns true, it catches its own failure and returns false (nothing new is
   * installed), or an exception escapes it.
   */
  datatype Setup = Installs | ReturnsFalse | Throws

  /** The class installed after one `setup()` call that would install `className` over `previous`. */
  function AfterSetup(className: string, previous: string, s: Setup): string {
    if s == Installs then className else previous
  }

  /**
   * `applyTheme(Theme)`: the look-and-feel class installed afterwards, given
   * the one installed before. The result of `setup()` is ignored, so a setup
   * that returns false leaves the previous class and skips the fallback; only
   * an exception leads to the catch block, which sets up the flat light class.
   */
  function ApplyTheme(t: Theme, previous: string, setup: Setup, fallback: bool): (installed: string)
    ensures setup == Installs ==> installed == ClassName(t) && FromString(Some(installed)) == t
    ensures setup == ReturnsFalse ==> installed == previous
    ensures setup == Throws && fallback ==> installed == ClassName(FlatLight) && FromString(Some(installed)) == FlatLight
    ensures setup == Throws && !fallback ==> installed == previous
  {
    FromStringRoundTrip(t);
    FromStringRoundTrip(FlatLight);
    if setup == Throws then AfterSetup(ClassName(FlatLight), previous, if fallback then Installs else ReturnsFalse)
    else AfterSetup(ClassName(t), previous, setup)
  }

  /**
   * `applyTheme(String)`: when setup succeeds, a known class name installs that
   * class and an unknown or missing name installs the flat light one.
   */
  function ApplyThemeNamed(themeName: Option<string>, previous: string, setup: Setup, fallback: bool): (installed: string)
    ensures setup == Installs && (exists s :: themeName == Some(ClassName(s))) ==> Some(installed) == themeName
    ensures setup == Installs && (forall s :: themeName != Some(ClassName(s))) ==> installed == "FlatLightLaf"
    ensures setup == Throws && fallback ==> installed == "FlatLightLaf"
    ensures setup == ReturnsFalse ==> installed == previous
  {
    ApplyTheme(FromString(themeName), previous, setup, fallback)
  }
}

=== FILE: tools_service.dfy ===
/**
 * The dashboard's tools menu: search, sort and filter over the stored
 * contacts. Each action reads the whole list and produces a new list; the
 * dialogs that ask for the term, the key or the filter become inputs
 * (`None` when cancelled) and the list the results window shows is the value
 * returned.
 */
module ToolsService {
  import opened JavaLang
  import opened Seqs
  import opened ContactModel

  // ---------------------------------------------------------------------------
  // Search
  // ---------------------------------------------------------------------------

  /**
   * A contact matches a search term when the term occurs, ignoring case, in
   * its first name, last name, email or location, or occurs exactly as typed
   * in its phone.
   */
  predicate SearchMatches(term: string, c: Contact) {
    ContainsIgnoreCase(c.fields.firstName, term) || ContainsIgnoreCase(c.fields.lastName, term)
    || ContainsIgnoreCase(c.fields.email, term) || Contains(c.fields.phone, term)
    || ContainsIgnoreCase(c.fields.location, term)
  }

  /** `searchAction`: no search for a cancelled or blank term; otherwise the matching contacts in list order. */
  function Search(term: Option<string>, contacts: seq<Contact>): (results: Option<seq<Contact>>)
    ensures results.None? <==> term.None? || IsBlank(term.value)
    ensures results.Some? ==> |results.value| <= |contacts|
  {
    if term.None? || IsBlank(term.value) then None
    else Some(Filter(contacts, (c: Contact) => SearchMatches(term.value, c)))
  }

  /**
   * The results are an order-preserving selection of the list holding every
   * matching contact, as often as it occurs, and nothing else.
   */
  lemma SearchResultsAreMatches(term: string, contacts: seq<Contact>, c: Contact)
    requires !IsBlank(term)
    ensures IsSubsequence(Search(Some(term), contacts).value, contacts)
    ensures multiset(Search(Some(term), contacts).value)[c]
         == if SearchMatches(term, c) then multiset(contacts)[c] else 0
    ensures c in Search(Some(term), contacts).value <==> c in contacts && SearchMatches(term, c)
  {
    var p := (x: Contact) => SearchMatches(term, x);
    FilterIsSubsequence(contacts, p);
    FilterCounts(contacts, p, c);
    FilterMembership(contacts, p, c);
  }

  /** Letter case matters only in the phone number: a term found in a name matches in any case. */
  lemma SearchIgnoresCaseOutsidePhone(term: string, c: Contact)
    requires ContainsIgnoreCase(c.fields.firstName, term)
    ensures SearchMatches(term, c) && SearchMatches(Lower(term), c)
  {
    LowerIdempotent(term);
  }

  /** The phone number is matched case-sensitively: an upper-case term does not find a lower-case phone text. */
  lemma PhoneSearchIsCaseSensitive()
    ensures !SearchMatches("X", Contact(1, ContactFields("", "", "", "+1x", ""), None, None))
    ensures SearchMatches("x", Contact(1, ContactFields("", "", "", "+1x", ""), None, None))
  {
    var s := "+1x";
    assert OccursAt(s, "x", 2);
    assert Lower("") == "";
    assert !Contains(s, "X") by {
      forall i | 0 <= i <= |s| - 1
        ensures !OccursAt(s, "X", i)
      {
        assert s[i..i + 1] == [s[i]];
      }
    }
  }

  // ---------------------------------------------------------------------------
  // Sort
  // ---------------------------------------------------------------------------

  /** The sort keys the dialog offers. */
  datatype SortKey = FirstName | LastName | Location | Phone | Email

  /** The option text the dialog shows for each key. */
  function SortOptionText(k: SortKey): string {
    match k
    case FirstName => "First Name"
    case LastName => "Last Name"
    case Location => "Location"
    case Phone => "Phone"
    case Email => "Email"
  }

  /** The `switch` on the chosen option text; any other text selects no key. */
  function ParseSortOption(selected: string): (k: Option<SortKey>)
    ensures k.Some? ==> SortOptionText(k.value) == selected
  {
    if selected == "First Name" then Some(FirstName)
    else if selected == "Last Name" then Some(LastName)
    else if selected == "Location" then Some(Location)
    else if selected == "Phone" then Some(Phone)
    else if selected == "Email" then Some(Email)
    else None
  }

  /** Each option the dialog shows selects its own key. */
  lemma ParseSortOptionRoundTrip(k: SortKey)
    ensures ParseSortOption(SortOptionText(k)) == Some(k)
  {
  }

  /**
   * What the comparator compares: `compareToIgnoreCase` on names, location
   * and email, which for ASCII orders as `compareTo` on the lower-cased texts,
   * and plain `compareTo` on the phone.
   */
  function SortKeyOf(k: SortKey): Contact -> string {
    match k
    case FirstName => (c: Contact) => Lower(c.fields.firstName)
    case LastName => (c: Contact) => Lower(c.fields.lastName)
    case Location => (c: Contact) => Lower(c.fields.location)
    case Phone => (c: Contact) => c.fields.phone
    case Email => (c: Contact) => Lower(c.fields.email)
  }

  /**
   * `sortAction`: nothing happens when the dialog is cancelled; a known key
   * sorts the list stably by it; any other option text returns the list as read.
   */
  function Sort(selected: Option<string>, contacts: seq<Contact>): (sorted: Option<seq<Contact>>)
    ensures selected.None? <==> sorted.None?
    ensures selected.Some? && ParseSortOption(selected.value).None? ==> sorted == Some(contacts)
  {
    if selected.None? then None
    else match ParseSortOption(selected.value)
      case None => Some(contacts)
      case Some(k) => Some(SortByKey(contacts, SortKeyOf(k)))
  }

  /**
   * Sorting by a key returns a permutation of the list, in order of that key,
   * and contacts with equal keys keep their relative order.
   */
  lemma SortOrdersByKey(k: SortKey, contacts: seq<Contact>, equalKey: string)
    ensures Sort(Some(SortOptionText(k)), contacts).Some?
    ensures var sorted := Sort(Some(SortOptionText(k)), contacts).value;
      multiset(sorted) == multiset(contacts)
      && SortedByKey(sorted, SortKeyOf(k))
      && WithKey(sorted, SortKeyOf(k), equalKey) == WithKey(contacts, SortKeyOf(k), equalKey)
  {
    ParseSortOptionRoundTrip(k);
    SortPermutes(contacts, SortKeyOf(k));
    SortIsSorted(contacts, SortKeyOf(k));
    SortIsStable(contacts, SortKeyOf(k), equalKey);
  }

  /** Any two positions of a sorted list are in key order. */
  lemma SortedPositions(k: SortKey, contacts: seq<Contact>, i: int, j: int)
    requires 0 <= i <= j < |contacts|
    ensures var sorted := SortByKey(contacts, SortKeyOf(k));
      |sorted| == |contacts| && NotAfter(SortKeyOf(k)(sorted[i]), SortKeyOf(k)(sorted[j]))
  {
    var sorted := SortByKey(contacts, SortKeyOf(k));
    SortPermutes(contacts, SortKeyOf(k));
    assert |sorted| == |multiset(sorted)| == |multiset(contacts)| == |contacts|;
    SortIsSorted(contacts, SortKeyOf(k));
    SortedPairwise(sorted, SortKeyOf(k), i, j);
  }

  // ---------------------------------------------------------------------------
  // Filter
  // ---------------------------------------------------------------------------

  /** The filters the dialog offers. */
  datatype FilterKind = ByLocation | ByEmailDomain | ByPhonePrefix

  function FilterOptionText(f: FilterKind): string {
    match f
    case ByLocation => "By Location"
    case ByEmailDomain => "By Email Domain"
    case ByPhonePrefix => "By Phone Prefix"
  }

  function ParseFilterOption(selected: string): (f: Option<FilterKind>)
    ensures f.Some? ==> FilterOptionText(f.value) == selected
  {
    if selected == "By Location" then Some(ByLocation)
    else if selected == "By Email Domain" then Some(ByEmailDomain)
    else if selected == "By Phone Prefix" then Some(ByPhonePrefix)
    else None
  }

  lemma ParseFilterOptionRoundTrip(f: FilterKind)
    ensures ParseFilterOption(FilterOptionText(f)) == Some(f)
  {
  }

  /**
   * The filter predicates: the location contains the value ignoring case; the
   * email contains it ignoring case anywhere, not only after the `@`; the
   * phone starts with it exactly as typed.
   */
  predicate FilterMatches(f: FilterKind, value: string, c: Contact) {
    match f
    case ByLocation => ContainsIgnoreCase(c.fields.location, value)
    case ByEmailDomain => ContainsIgnoreCase(c.fields.email, value)
    case ByPhonePrefix => StartsWith(c.fields.phone, value)
  }

  /**
   * `filterAction`: nothing happens when either dialog is cancelled or the
   * value is blank; a known filter keeps the matching contacts in order; any
   * other option text returns the list as read.
   */
  function FilterContacts(selected: Option<string>, value: Option<string>, contacts: seq<Contact>)
    : (filtered: Option<seq<Contact>>)
    ensures filtered.None? <==> selected.None? || value.None? || IsBlank(value.value)
    ensures filtered.Some? && ParseFilterOption(selected.value).None? ==> filtered == Some(contacts)
    ensures filtered.Some? ==> |filtered.value| <= |contacts|
  {
    if selected.None? || value.None? || IsBlank(value.value) then None
    else match ParseFilterOption(selected.value)
      case None => Some(contacts)
      case Some(f) => Some(Filter(contacts, (c: Contact) => FilterMatches(f, value.value, c)))
  }

  /**
   * A known filter keeps an order-preserving selection of the list: every
   * matching contact, as often as it occurs, and nothing else.
   */
  lemma FilterResultsAreMatches(f: FilterKind, value: string, contacts: seq<Contact>, c: Contact)
    requires !IsBlank(value)
    ensures var filtered := FilterContacts(Some(FilterOptionText(f)), Some(value), contacts).value;
      IsSubsequence(filtered, contacts)
      && multiset(filtered)[c] == (if FilterMatches(f, value, c) then multiset(contacts)[c] else 0)
  {
    ParseFilterOptionRoundTrip(f);
    var p := (x: Contact) => FilterMatches(f, value, x);
    FilterIsSubsequence(contacts, p);
    FilterCounts(contacts, p, c);
  }

  /** The email filter is not restricted to the domain: a value found in the local part matches too. */
  lemma EmailFilterSearchesWholeAddress()
    ensures FilterMatches(ByEmailDomain, "ada", Contact(1, ContactFields("", "", "", "", "ada@x.org"), None, None))
  {
    var e := "ada@x.org";
    assert Lower(e)[0..3] == "ada";
    assert Lower("ada") == "ada";
    assert OccursAt(Lower(e), Lower("ada"), 0);
  }
}
